=== FILE: README.md ===
# MEM8 context API: a Dafny model of its core

This project models the data-handling core of a MEM8 context server written in
Rust, with proofs about the model. The server turns uploads into containers and
keeps them in a content-addressed nexus. The core covers:

- **Marqant documents** (`.mq`): markdown compressed with zlib. A document carries
  a SHA-256 signature of the uncompressed text and a *semantic index*: the byte
  offsets of header lines, fenced-code markers and links. It is framed as
  `"MQ03" | u32 header length | header | u32 index length | index | payload`.
- **M8 containers** (`.m8`): a typed payload with a header and a 32-byte signature,
  framed as `"M8C1" | u32 header length | header | signature | u64 data length | data`.
  They are built from text, from a Marqant document, or from a list of MEM8
  memory ids. The payload is read back according to its content type.
- **The nexus**: containers keyed by signature, with store, retrieve, list and
  per-type statistics.
- **The consent manager**: records keyed by (user, operation), a default policy
  (always ask, implicit allow, or a time-limited implicit grant), and cleanup of
  expired records. Also the text of a consent prompt.
- **The HTTP layer's hex codec** and the 32-byte signature gate of
  `GET /container/{signature}`.
- **The live-feed auctioneer's integer bookkeeping**:
  - the event history, capped at 1000 and read newest first;
  - contributor counters;
  - quantum names hashed from the id's bytes;
  - the excitement level of coding-battle events and the crowd reaction to it.

The model is functional throughout. Bytes are `Binary.Byte` (0..255), and
fixed-width integers are subset types of `int`. The `u32`/`u64` truncations and
wrap-arounds of the Rust code are written out. The libraries the code calls are
function-valued parameters, and the round-trip lemmas require the properties
they need of them (`Foreign.Lossless` for zlib, `Foreign.RoundTrips` for
bincode). This applies to zlib, bincode and SHA-256, and also to the MEM8 engine
(`M8.Engine`) and the clock (a `now` parameter, in nanoseconds).

Where the code and its documented intent disagree, the model follows the code:

- `from_bytes` does not check the header's version;
- `stats` produces only per-type counts, with no `total_containers` key (the
  HTTP handler reads that key and so always reports 0).

Four places where the code is evidently wrong are listed under "## Findings".
Each is modelled both as written and corrected:

- The semantic index keeps the header offsets as `extract_semantic_tokens` computes
  them (`SemanticIndex.HeadersAsWritten`). They are bytes every `.mq` file and every
  Marqant-typed M8 signature is computed over. The corrected offsets
  (`SemanticIndex.HeadersFrom`) are proved exact and equal to them on text
  without "\r\n" endings.
- Both `from_bytes` parsers and `hex::decode` are used in their checked form. Each
  agrees with the Rust code wherever that code returns, and returns an error
  where it panics.

Modules, one per file: `Wrappers`, `Binary`, `Text`, `Utf8` (well-formedness
and `String::from_utf8_lossy`), `Foreign`, `SemanticIndex`, `Markqant`, `M8`,
`Nexus`, `Consent`, `Hex`, `Api`, `AuctioneerHistory`, `QuantumNames`,
`AuctioneerContributors`, `AuctioneerBattles`, `Auctioneer`.

## Model

| member | source | states |
|---|---|---|
| Binary.FromLeToLe | src/markqant.rs:177-179 | reading back k little-endian bytes written by `to_le_bytes` gives the value whenever it fits in k bytes |
| Utf8.LossyOfValid | src/markqant.rs:134 | `from_utf8_lossy` returns well-formed UTF-8 unchanged |
| Utf8.LossyFromInvalid | src/markqant.rs:134 | on ill-formed input the lossy conversion always changes the bytes (some maximal ill-formed part is replaced by U+FFFD) |
| Utf8.LossyIsIdentityIff | src/markqant.rs:134 | lossy conversion is the identity exactly on well-formed UTF-8 |
| Markqant.MarkdownToWave | src/markqant.rs:123-128 | the wave pattern has the markdown's length (it is its bytes) |
| Markqant.WaveToMarkdown | src/markqant.rs:131-135 | a well-formed wave pattern converts back to itself |
| Markqant.WaveRoundTrip | src/markqant.rs:123-135 | wave conversion and back gives the markdown exactly when the markdown is well-formed UTF-8 |
| Markqant.FromMarkdown | src/markqant.rs:41-73 | the header has version 3, level 9, original size the markdown's byte length, compressed size the payload's length, the signature is the hash of the uncompressed text, the metadata is format/encoding, the index is the extracted one |
| Markqant.ToMarkdown | src/markqant.rs:76-84 | fails exactly when zlib cannot inflate the payload; on well-formed inflated text returns that text |
| Markqant.MarkdownRoundTrip | src/markqant.rs:41-84 | with a lossless zlib, decoding an encoded document gives back the markdown, and its signature is the hash of what comes back |
| Markqant.ToBytes | src/markqant.rs:146-166 | the frame is 12 bytes plus header, index and payload, and starts with "MQ03" |
| Markqant.MagicChecked | src/markqant.rs:170-172 | the format error is returned exactly when the buffer is shorter than 4 bytes or the magic is not "MQ03" |
| Markqant.ShortBuffersFail | src/markqant.rs:169-194 | no buffer under 12 bytes parses |
| Markqant.FrameRoundTrip | src/markqant.rs:146-201 | parsing what `to_bytes` wrote gives the same header, index and payload, if bincode round-trips and both sections are under 4 GiB |
| Markqant.FileRoundTrip | src/markqant.rs:41-201 | encoding, framing, parsing and decoding a document gives back its text |
| Markqant.FromBytesAgrees | src/markqant.rs:169-201 | the checked parser returns what `Marqant::from_bytes` returns wherever that returns, and `Truncated` exactly where it panics |
| Markqant.BareMagicPanics | src/markqant.rs:177-179 | the four bytes "MQ03" make `Marqant::from_bytes` panic; the checked parser says `Truncated` |
| SemanticIndex.LinesWhereExact | src/markqant.rs:93-101 | the lines a test selects are listed by start offset, exactly the selected line starts, in increasing order |
| SemanticIndex.HeadersFromExact | src/markqant.rs:89-101 | header offsets are exactly the starts of lines matching `^#{1,6}\s+(.+)$`, strictly increasing and inside the text |
| SemanticIndex.HeadersAsWrittenWithoutCrlf | src/markqant.rs:93-100 | without "\r\n" endings the running position of `extract_semantic_tokens` gives the true line starts |
| SemanticIndex.CrlfHeaderOffsetDrifts | src/markqant.rs:100 | on "a\r\n# H" the header starts at byte 3 but `extract_semantic_tokens` records 2 |
| SemanticIndex.HeadersAsWrittenBounds | src/markqant.rs:93-100 | the running position yields one offset per header line, strictly increasing on any text (each line advances it by at least one), each no later than that line's start, so inside the text |
| SemanticIndex.ScanSound | src/markqant.rs:104-117 | a leftmost non-overlapping scan lists match starts only, increasing, non-overlapping, and misses no match start outside a listed match |
| SemanticIndex.ScanNone | src/markqant.rs:115 | where nothing matches, nothing is listed |
| SemanticIndex.FencesExact | src/markqant.rs:104-108 | every listed fence offset starts "```", consecutive offsets are at least 3 apart, and every "```" is listed or overlaps a listed one |
| SemanticIndex.LinksExact | src/markqant.rs:111-117 | every listed offset starts a `[text](url)` match, matches do not overlap, and every match start is listed or inside a listed match |
| SemanticIndex.ExtractSemanticTokens | src/markqant.rs:87-120 | keys are only headers/code_blocks/links; "headers" is present iff a header line exists and then has one offset per header line; "code_blocks" iff at least two fences; "links" iff at least one link |
| SemanticIndex.IndexIsExact | src/markqant.rs:93-116 | below 4 GiB the `u32` casts lose nothing: the headers entry is the running-position offsets, strictly increasing, and the true line starts on text without "\r\n"; the other entries are exactly the offsets found |
| SemanticIndex.TitleExample | src/markqant.rs:87-120 | "# Title\n\nBody" gives only headers = [0] |
| M8.TypeNameInjective | src/m8.rs:280-287 | distinct content types have distinct `Debug` names, so stats keys never merge two types |
| M8.FromText | src/m8.rs:92-120 | fails exactly when MEM8 refuses the text (StoreFailed); otherwise data is the text's bytes, signature their hash, type Language, version 1, the engine's memory id, neutral emotion, timestamp `now`, metadata source "text" and the text's byte length |
| M8.FromMarqant | src/m8.rs:58-89 | fails exactly when the document does not inflate (the Inflate error) or MEM8 refuses the decoded text at importance 7 (StoreFailed); on success data is the document's `to_bytes`, the signature hashes exactly those bytes, the one memory id is the engine's, type Marqant, version 1, neutral emotion, and the metadata is source/compression_ratio |
| M8.WaveBytesRoundTrip | src/m8.rs:132-134 | the twelve bytes of a wave read back as its amplitude, frequency and phase |
| M8.CompoundDataAppend | src/m8.rs:130-136 | collecting waves over a concatenation of ids concatenates the collections |
| M8.CompoundLayout | src/m8.rs:128-137 | the data is 12 bytes per resolved id, and block k is the wave of the k-th resolved id, in input order |
| M8.FromCompound | src/m8.rs:123-159 | the header lists every id given, version 1, type Compound, the given emotion, timestamp `now`, metadata source "compound" and the number of ids; the data is the collected waves, block k being the twelve bytes of the k-th resolved id's wave; the signature hashes the data |
| M8.UnresolvedIdSkipped | src/m8.rs:131 | an id the engine cannot resolve adds nothing to the data |
| M8.ToBytes | src/m8.rs:162-181 | the frame is 48 bytes plus header and data, and starts with "M8C1" |
| M8.MagicChecked | src/m8.rs:185-187 | the format error is returned exactly on a short buffer or a wrong magic |
| M8.SignatureCopied | src/m8.rs:199-202 | the parsed signature is the 32 stored bytes, not recomputed from the data |
| M8.FrameRoundTrip | src/m8.rs:162-218 | parsing what `to_bytes` wrote, followed by any bytes, gives back the container, signature included |
| M8.FromBytesAgrees | src/m8.rs:184-218 | the checked parser agrees with `M8Container::from_bytes` where that returns and says `Truncated` exactly where it panics |
| M8.BareMagicPanics | src/m8.rs:192-194 | the four bytes "M8C1" make `M8Container::from_bytes` panic |
| M8.ExtractContent | src/m8.rs:229-243 | Language gives the lossy text; types other than Marqant and Language give the diagnostic; a Marqant payload that does not parse gives its error |
| M8.TextContainerRoundTrip | src/m8.rs:294-304 | a text container, framed and parsed back, keeps its signature and extracts to the text |
| M8.MarqantContainerContent | src/m8.rs:229-234 | a container made from a document extracts to the document's text |
| Nexus.Retrieve | src/m8.rs:268-270 | a container is found exactly when its signature is stored, and it is the stored one |
| Nexus.Store | src/m8.rs:261-265 | returns the container's signature; afterwards retrieving it gives the container, other signatures are unchanged, and the size grows only for a new signature |
| Nexus.StoreOverwrites | src/m8.rs:261-265 | a second store under the same signature replaces the first without growing the map |
| Nexus.SameTextStoredOnce | src/m8.rs:261-265 | the same text uploaded twice, at any times, leaves one container under the hash of the text |
| Nexus.List | src/m8.rs:273-277 | one entry per stored signature, no duplicates, each with its container's type and timestamp |
| Nexus.StatsOverAt | src/m8.rs:280-287 | a listed type's name is a key iff the type has containers, and it maps to their number |
| Nexus.StatsOverKey | src/m8.rs:280-287 | every key is the name of a listed type |
| Nexus.StatsExact | src/m8.rs:280-287 | a type's name is a key iff some container has that type, then it maps to their count; there are no other keys |
| Nexus.EmptyStats | src/m8.rs:280-287 | an empty nexus has empty stats |
| Nexus.CountsSumToSize | src/m8.rs:280-287 | the per-type counts add up to the number of stored containers |
| Consent.NewManager | src/consent.rs:48-53 | a new manager has no records and the given policy |
| Consent.Elapsed | src/consent.rs:64-66 | elapsed time is now minus the timestamp, or 0 when the clock reads earlier |
| Consent.Grant | src/consent.rs:93-111 | exactly the (user, op) key gets a granted record with this time, duration, purpose and conditions; every other record and the policy are unchanged |
| Consent.Revoke | src/consent.rs:114-121 | an existing record only loses `granted`; an absent key changes nothing; other records are unchanged |
| Consent.Check | src/consent.rs:56-90 | the answer is yes iff a granted record is in force, or there is no granted record and the policy is not AlwaysAsk; the policy and every other record are kept and at most this key is added; a refusal or a granting record writes nothing; under TimeLimited(d) without a granting record, an implicit grant for d at this time is written |
| Consent.UserConsents | src/consent.rs:124-145 | exactly the user's records that are granted and unexpired, unchanged |
| Consent.Cleanup | src/consent.rs:148-165 | keeps exactly the granted, unexpired records, unchanged, and the policy |
| Consent.RecordDecides | src/consent.rs:60-70 | a granted record gives the same answer under any policy, writes nothing, and answers yes when it has no duration |
| Consent.AlwaysAskDenies | src/consent.rs:74-75 | under AlwaysAsk with no granting record the answer is no and nothing is written |
| Consent.ImplicitGrantExpires | src/consent.rs:77-88 | under TimeLimited(d) the first check says yes and writes duration d; a later check says yes iff less than d has elapsed |
| Consent.RevokedFallsBackToPolicy | src/consent.rs:60-76 | after revoking, the policy answers again: yes under ImplicitAllow and TimeLimited, no under AlwaysAsk |
| Consent.RevokeAbsent | src/consent.rs:118-120 | revoking a key with no record is a no-op |
| Consent.CleanupIdempotent | src/consent.rs:148-165 | cleaning up twice is cleaning up once |
| Consent.CleanupKeepsActiveAnswers | src/consent.rs:148-165 | cleanup does not change the answer for a record in force |
| Consent.ConsentFlow | src/consent.rs:256-276 | under AlwaysAsk: no consent at first, consent after a 60-second grant, still none for another operation |
| Consent.NewRequest | src/consent.rs:179-188 | a new request has the user and operation and every other field empty |
| Consent.BuiltRequest | src/consent.rs:190-208 | a request built with the four setters holds exactly the values given |
| Consent.RetentionTextEnding | src/consent.rs:231-233 | the retention text is never empty; it ends in "e" ("Indefinite") without a period and in "s" ("seconds") with one |
| Consent.RetentionTextDistinguishes | src/consent.rs:231-233 | equal retention texts mean both or neither period is set, and the same whole seconds |
| Consent.SharingTextNamesFirst | src/consent.rs:234-238 | a non-empty sharing scope is shown starting with its first entry |
| Consent.FreshRequestPrompt | src/consent.rs:231-238 | a fresh request shows "Indefinite" and "No external sharing"; a set retention never shows "Indefinite" |
| Hex.Encode | src/api.rs:391-395 | the text has two characters per byte, all in [0-9a-f] |
| Hex.PairValue | src/api.rs:400-401 | a pair reads as a byte iff it is two hex digits of either case or '+' and one digit; two digits give 16·x + y and '+' with a digit gives that digit |
| Hex.Decode | src/api.rs:397-405 | on success the text has even length and gives half as many bytes |
| Hex.DecodeSucceedsIff | src/api.rs:397-405 | decoding succeeds exactly on even-length text whose every pair is valid |
| Hex.DecodeEncode | src/api.rs:391-405 | decoding an encoding gives back the bytes |
| Hex.EncodeDecode | src/api.rs:391-405 | on even-length lower-case hex, encoding the decoded bytes gives back the text |
| Hex.DecodeAgrees | src/api.rs:397-405 | the checked decoder returns what `hex::decode` returns wherever that returns, and an error wherever it panics |
| Hex.AsciiPanicsOnlyOnOddLength | src/api.rs:397-405 | on ASCII text `hex::decode` panics exactly when the length is odd |
| Hex.OddLengthPanics | src/api.rs:400 | "abc" makes `hex::decode` panic; the checked decoder says odd length |
| Hex.SplitCharacterPanics | src/api.rs:400 | "aé0" makes `hex::decode` panic by slicing inside 'é'; the checked decoder says invalid digit |
| Hex.DecodeIgnoresCase | src/api.rs:397-405 | upper-case digits decode to the same bytes, or the same error, as their lower-case form |
| Hex.PlusSignAccepted | src/api.rs:400 | "+f" decodes to 0x0f, as `from_str_radix` accepts a sign |
| Api.GetContainer | src/api.rs:296-319 | BadRequest exactly when the path is not hex of 32 bytes; NotFound exactly when those bytes are not stored; content or a server error only for a stored signature |
| Api.StoredContainerServed | src/api.rs:296-319 | a stored container is served under the hex of its signature |
| Api.WrongLengthRejected | src/api.rs:300-308 | any path whose UTF-8 length is not 64 bytes is a BadRequest |
| Api.PathCaseIgnored | src/api.rs:296-319 | an upper-case signature path gets the same response as its lower-case form |
| AuctioneerHistory.AddEvent | src/auctioneer.rs:299-305 | below the cap the event is appended; at the cap the oldest is dropped and the event appended, so the length stays at most the cap |
| AuctioneerHistory.AddAllKeepsNewest | src/auctioneer.rs:299-305 | adding events to a history within the cap keeps exactly the newest 1000 of old and new, in arrival order |
| AuctioneerHistory.HistoryIsNewestEvents | src/auctioneer.rs:299-305 | from empty, the history is the last min(n, 1000) events |
| AuctioneerHistory.RecentEvents | src/auctioneer.rs:308-315 | returns min(count, length) events, newest first |
| AuctioneerHistory.RecentOfFeed | src/auctioneer.rs:308-315 | after a feed of events, asking for count gives the last min(count, n, 1000) of them, newest first |
| QuantumNames.WrappingFoldIsSum | src/auctioneer.rs:274 | the wrapping fold is the byte sum modulo 2^32 |
| QuantumNames.QuantumNameFromSum | src/auctioneer.rs:273-283 | the name is adjective[h % 7] + noun[(h >> 8) % 7] + the decimal of h % 1000, with h the byte sum mod 2^32 |
| QuantumNames.ByteSumPermutation | src/auctioneer.rs:274 | the byte sum depends only on the multiset of bytes |
| QuantumNames.NameIgnoresByteOrder | src/auctioneer.rs:273-283 | ids with the same bytes in any order get the same name |
| QuantumNames.NameDeterminesNumber | src/auctioneer.rs:273-283 | equal names mean equal hash % 1000: the number can be read off the name |
| AuctioneerContributors.ContributeEntry | src/auctioneer.rs:107-119 | a newcomer is entered with its generated name and count 1; a known contributor keeps id and name and counts one more, mod 2^64 |
| AuctioneerContributors.ContributeFrame | src/auctioneer.rs:107-119 | a contribution adds only its own id and leaves every other entry as it was |
| AuctioneerContributors.ContributeAllKnown | src/auctioneer.rs:107-117 | after a run of contributions an id is known iff it was known before or contributed |
| AuctioneerContributors.ContributeAllCount | src/auctioneer.rs:119 | each id's count grows by its number of contributions, mod 2^64 |
| AuctioneerContributors.ContributeAllName | src/auctioneer.rs:107-111 | an id keeps the name it was first given |
| AuctioneerContributors.CountsAreContributions | src/auctioneer.rs:96-142 | from no contributors and fewer than 2^64 contributions, the known ids are those that contributed, each counted exactly its number of contributions, under its generated name |
| AuctioneerBattles.FailureRemarkFor | src/auctioneer_battles.rs:86-102 | attempt 1 stumbles, attempts 2-3 struggle, any other attempt (0 included) is desperate |
| AuctioneerBattles.Excitement | src/auctioneer_battles.rs:51-158 | a test scores 9 on success and 7 on failure; a code change scores min(lines / 10, 10); an epic move or result scores 10; an entrance scores its precomputed level |
| AuctioneerBattles.ScaledEventsAtMostTen | src/auctioneer_battles.rs:77-156 | every event but an entrance scores at most 10 |
| AuctioneerBattles.CodeChangeMonotone | src/auctioneer_battles.rs:109 | more lines changed never scores less |
| AuctioneerBattles.ReactionsDistinct | src/auctioneer_battles.rs:161-169 | the six reactions are different texts |
| AuctioneerBattles.CrowdReaction | src/auctioneer_battles.rs:161-169 | each reaction is given exactly on its band 0-2, 3-4, 5-6, 7-8 or 9-10, and the fallback exactly above 10 |
| AuctioneerBattles.ReactionToEvent | src/auctioneer_battles.rs:51-169 | a passed test, an epic move and a result get pandemonium, a failed test an ovation; only an entrance above 10 confuses the crowd |
| Auctioneer.FollowUpLevel | src/auctioneer.rs:341 | `saturating_sub(2)`: never above the level, two below from 2 on, 0 below 2 |
| Auctioneer.AnnounceBattle | src/auctioneer.rs:323-343 | the announcement carries the event's level, the crowd reaction to that level, and a follow-up level that saturates at 0 |
| Auctioneer.FollowUpOfBattle | src/auctioneer.rs:339-342 | follow-ups are 7 or 5 after a test and 8 after an epic move or result; only a small code change or a timid entrance saturates at 0 |

## Left out

- Floating point:
  - `compression_ratio` enters `M8.FromMarqant` as its two-decimal text, a parameter;
  - `emotional_context_to_bytes` enters `M8.FromCompound` as the three bytes;
  - an entrance's `(confidence * 10.0) as u8` is carried by `AuctioneerBattles.ContenderEnters` as a precomputed level;
  - wave strength, emotional impact and the specialty are left out of `ContributorStats`.
- The MEM8 engine is a parameter (`M8.Engine`): storing text may fail, and looking up a wave may fail. Its internals are not part of this model.
- zlib, bincode and SHA-256 are function parameters. Their algorithms are not part of this model; the round trips require `Foreign.Lossless` and `Foreign.RoundTrips` of them.
- Concurrency is left out: the mutexes, lock poisoning, the tokio channels and the SSE stream. With a poisoned engine lock `from_compound` collects no waves; the model assumes the lock is taken.
- The HTTP handlers are left out, except the signature gate of `get_container`: multipart parsing, JSON responses, the `main.rs` wiring, and the `total_containers` key that the stats handler reads but `stats` never writes.
- The auctioneer's async `generate_commentary`, `check_for_quantum_events` and leaderboard are left out. So is the channel traffic: `announce_battle_event` sends its two events on the channel and adds nothing to the history, so `Auctioneer.AnnounceBattle` returns the values it would send.
- Commentary and prompt text are left out: only the branch taken and the integer levels are modelled. `Consent.ToPrompt` is written out but has no contract of its own; its retention and sharing parts carry the lemmas. The prompt's title glyph is the four characters `to_prompt` writes there.
- Clocks are `now: nat` parameters in nanoseconds; `SystemTime::duration_since` failing becomes 0 (`Consent.Elapsed`).
- AuctioneerContributors.ContributeEntry: the count wraps at 2^64, as in a release build; a debug build would panic on overflow. `CountsAreContributions` requires fewer than 2^64 contributions.
- AuctioneerContributors.ContributeEntry: the naming function is a parameter. The auctioneer passes `QuantumNames.QuantumName`, and that link is not stated formally.
- Markqant.ToMarkdown: for inflated bytes that are not well-formed UTF-8 the contract does not give the replaced text; `Utf8.LossyFromInvalid` states only that it differs from the input.
- M8.ExtractContent: the contract does not state the text of a Marqant payload that parses; `M8.MarqantContainerContent` states it for a container made from a document.
- M8.Wave: amplitude, frequency and phase are taken to be four bytes each (the bit pattern of an `f32`). `WavePattern` belongs to the MEM8 crate, which is not part of this model. The twelve bytes per resolved id in `M8.CompoundLayout`, `M8.FromCompound` and `M8.WaveBytesRoundTrip` rest on that width.
- Markqant.ToBytes: the header metadata and the semantic index are Rust `HashMap`s with a per-instance random hasher, and bincode writes them in iteration order. The Rust bytes of two equal documents may therefore differ. `M8.FromMarqant` hashes those bytes, so the same upload can get two signatures and be stored twice. `M8.ToBytes` writes the container header's metadata map the same way. The model gives `Foreign.Serializer` one encoding per value, so equal documents always get equal bytes and an equal signature.
- Consent.UserConsents: returns a map keyed by operation; `get_user_consents` returns a `Vec` in hash-map order, which the model does not fix.
- Nexus.List: the order of the entries is not stated; `list` returns them in the order of a hash map.
- Markqant.FromMarkdown requires well-formed UTF-8, which every Rust `&str` is. `M8.FromText` requires the same.
- `M8.FromBytes` and `Markqant.FromBytes` do not check the header's version, and neither does the Rust code.

## Findings

| source | as written | input that shows it | evidently intended | confidence | as-written member | corrected member |
|---|---|---|---|---|---|---|
| src/markqant.rs:100 | the running position adds `line.len() + 1`, but `lines()` strips a '\r' before '\n', so each CRLF line moves later header offsets one byte early | "a\r\n# H": header at byte 3, recorded as 2 | each header offset is the byte offset where its line starts | not executed | SemanticIndex.CrlfHeaderOffsetDrifts | SemanticIndex.HeadersFromExact |
| src/markqant.rs:177-194 | after the magic check, length fields and sections are read without bounds checks | "MQ03" alone: indexing `data[4]` panics | a short or lying buffer is an `Err` | not executed | Markqant.BareMagicPanics | Markqant.FrameRoundTrip |
| src/m8.rs:192-211 | after the magic check, the header, signature and data are read without bounds checks | "M8C1" alone: indexing `data[4]` panics | a short or lying buffer is an `Err` | not executed | M8.BareMagicPanics | M8.FrameRoundTrip |
| src/api.rs:398-401 | the decoder slices `s[i..i + 2]` for each even `i < len`, which panics on odd length and inside a multi-byte character | "abc": `s[2..4]` is out of range | odd or non-hex input is an `Err` | not executed | Hex.OddLengthPanics | Hex.DecodeSucceedsIff |

=== FILE: api.dfy ===
/** The signature gate of `GET /container/{signature}`: the path must decode from hex
    to exactly 32 bytes before the nexus is consulted. */
module Api {
  import opened Binary
  import opened Wrappers
  import opened Hex
  import opened Nexus
  import M8

  datatype Response =
    | BadRequest      // "Invalid signature format"
    | NotFound        // "Container not found"
    | Ok(content: Bytes)
    | ServerError(e: M8.Error)

  /** `get_container`, with the checked hex decoder. */
  function GetContainer(c: M8.Codecs, n: Nexus, path: Bytes): (r: Response)
    ensures r != BadRequest <==> Decode(path).Success? && |Decode(path).value| == 32
    ensures r.Ok? || r.ServerError? ==> Decode(path).Success? && Decode(path).value in n.containers
    ensures r == NotFound ==> Decode(path).Success? && Decode(path).value !in n.containers
  {
    match Decode(path)
    case Failure(_) => BadRequest
    case Success(bytes) =>
      if |bytes| != 32 then BadRequest
      else
        var signature: Digest := bytes;
        match Retrieve(n, signature)
        case None => NotFound
        case Some(container) =>
          match M8.ExtractContent(c, container)
          case Failure(e) => ServerError(e)
          case Success(content) => Ok(content)
  }

  /** A stored container is served under the hex form of its signature. */
  lemma StoredContainerServed(c: M8.Codecs, n: Nexus, signature: Digest)
    requires signature in n.containers
    requires M8.ExtractContent(c, n.containers[signature]).Success?
    ensures GetContainer(c, n, Encode(signature)) == Ok(M8.ExtractContent(c, n.containers[signature]).value)
  {
    DecodeEncode(signature);
  }

  /** Hex text of any length other than 64 digits is turned away before any lookup. */
  lemma WrongLengthRejected(c: M8.Codecs, n: Nexus, path: Bytes)
    requires |path| != 64
    ensures GetContainer(c, n, path) == BadRequest
  {
  }

  /** The case of the digits in the path does not matter: an upper-case signature
      gets the same response as its lower-case form. */
  lemma PathCaseIgnored(c: M8.Codecs, n: Nexus, path: Bytes)
    ensures GetContainer(c, n, path) == GetContainer(c, n, Lowered(path))
  {
    DecodeIgnoresCase(path);
  }
}

=== FILE: auctioneer.dfy ===
/** The live-feed auctioneer's integer bookkeeping for battle events: the level the
    crowd reacts to and the level of the follow-up comment. */
module Auctioneer {
  import opened Binary
  import opened AuctioneerBattles

  /** `u8::saturating_sub(level, 2)`. */
  function FollowUpLevel(level: Byte): (r: Byte)
    ensures r <= level
    ensures level >= 2 ==> level - r == 2
    ensures level < 2 ==> r == 0
  {
    if level >= 2 then level - 2 else 0
  }

  datatype Announcement = Announcement(level: Byte, reaction: string, followUpLevel: Byte)

  /** The integer content of `announce_battle_event`: the event's level, the crowd
      reaction to that level, and the follow-up comment two levels lower (never
      below zero). */
  function AnnounceBattle(e: Event): (r: Announcement)
    ensures r.level == Excitement(e)
    ensures r.reaction == CrowdReaction(r.level)
    ensures r.followUpLevel <= r.level
    ensures r.level >= 2 ==> r.followUpLevel + 2 == r.level
    ensures r.level < 2 ==> r.followUpLevel == 0
  {
    var level := Excitement(e);
    Announcement(level, CrowdReaction(level), FollowUpLevel(level))
  }

  /** The follow-up to a test attempt, epic move or result is exactly two below its
      level; only a small code change or a timid entrance saturates at zero. */
  lemma FollowUpOfBattle(e: Event)
    ensures e.TestAttempt? ==> AnnounceBattle(e).followUpLevel == (if e.success then 7 else 5)
    ensures e.EpicMove? || e.BattleResult? ==> AnnounceBattle(e).followUpLevel == 8
    ensures AnnounceBattle(e).followUpLevel == 0 ==>
      AnnounceBattle(e).level <= 2 && (e.CodeChange? || e.ContenderEnters?)
  {
  }
}

=== FILE: auctioneer_battles.dfy ===
/** Excitement levels of AI coding-battle events and the crowd's reaction to a
    level. Only the integer part of the commentary is modelled: which event gives
    which level, which failure remark an attempt number selects, and the band a
    level falls into. */
module AuctioneerBattles {
  import opened Binary

  /** `BattleEventType`. The entrance's level is `(confidence * 10.0) as u8`, a float
      conversion, so the event carries that level directly. */
  datatype Event =
    | ContenderEnters(aiName: string, specialty: string, entranceLevel: Byte)
    | TestAttempt(aiName: string, testName: string, attemptNumber: U32, success: bool)
    | CodeChange(aiName: string, file: string, linesChanged: U32, approach: string)
    | EpicMove(aiName: string, moveDescription: string, crowdReaction: string)
    | BattleResult(winner: string, decisiveFactor: string, durationNanos: nat)

  /** The three remarks for a failed test attempt. */
  datatype FailureRemark =
    | FirstStumble    // "stumbles on the ... test! First attempt down"
    | Struggling      // "Attempt #n fails! ... is struggling"
    | Desperate       // "OH NO! Attempt #n crashes and burns!"

  /** The remark a failed attempt gets: attempt 1, attempts 2 and 3, anything else. */
  function FailureRemarkFor(attempt: U32): (r: FailureRemark)
    ensures r == FirstStumble <==> attempt == 1
    ensures r == Struggling <==> 2 <= attempt <= 3
    ensures r == Desperate <==> attempt == 0 || attempt > 3
  {
    if attempt == 1 then FirstStumble
    else if 2 <= attempt <= 3 then Struggling
    else Desperate
  }

  /** The level `generate_battle_commentary` pairs with its commentary. */
  function Excitement(e: Event): (r: Byte)
    ensures e.TestAttempt? ==> (r == 9 <==> e.success) && (r == 7 <==> !e.success)
    ensures e.CodeChange? ==> r <= 10
    ensures e.CodeChange? && e.linesChanged >= 100 ==> r == 10
    ensures e.CodeChange? && e.linesChanged < 100 ==> 10 * r <= e.linesChanged < 10 * r + 10
    ensures e.EpicMove? || e.BattleResult? ==> r == 10
    ensures e.ContenderEnters? ==> r == e.entranceLevel
  {
    match e
    case ContenderEnters(_, _, level) => level
    case TestAttempt(_, _, _, success) => if success then 9 else 7
    case CodeChange(_, _, lines, _) => if lines / 10 < 10 then lines / 10 else 10
    case EpicMove(_, _, _) => 10
    case BattleResult(_, _, _) => 10
  }

  /** Every event but an entrance stays on the ten-point scale. */
  lemma ScaledEventsAtMostTen(e: Event)
    requires !e.ContenderEnters?
    ensures Excitement(e) <= 10
  {
  }

  /** More lines changed never means less excitement. */
  lemma CodeChangeMonotone(a: Event, b: Event)
    requires a.CodeChange? && b.CodeChange?
    requires a.linesChanged <= b.linesChanged
    ensures Excitement(a) <= Excitement(b)
  {
  }

  // --------------------------------------------------------- crowd reaction

  const GOLF_CLAP := "*polite golf clap*"
  const MURMURING := "*interested murmuring*"
  const CHEERING := "*excited cheering*"
  const OVATION := "*standing ovation*"
  const PANDEMONIUM := "*QUANTUM PANDEMONIUM*"
  const CONFUSED := "*confused quantum superposition*"

  /** The six reactions are different texts. */
  lemma ReactionsDistinct()
    ensures GOLF_CLAP != MURMURING && GOLF_CLAP != CHEERING && GOLF_CLAP != OVATION
    ensures GOLF_CLAP != PANDEMONIUM && GOLF_CLAP != CONFUSED
    ensures MURMURING != CHEERING && MURMURING != OVATION && MURMURING != PANDEMONIUM
    ensures MURMURING != CONFUSED
    ensures CHEERING != OVATION && CHEERING != PANDEMONIUM && CHEERING != CONFUSED
    ensures OVATION != PANDEMONIUM && OVATION != CONFUSED
    ensures PANDEMONIUM != CONFUSED
  {
    assert GOLF_CLAP[1] == 'p' && MURMURING[1] == 'i' && CHEERING[1] == 'e';
    assert OVATION[1] == 's' && PANDEMONIUM[1] == 'Q' && CONFUSED[1] == 'c';
  }

  /** `get_crowd_reaction`: a reaction for each band of two levels from 0 to 10,
      and one fallback for every level above 10. */
  function CrowdReaction(level: Byte): (r: string)
    ensures r == GOLF_CLAP <==> level <= 2
    ensures r == MURMURING <==> 3 <= level <= 4
    ensures r == CHEERING <==> 5 <= level <= 6
    ensures r == OVATION <==> 7 <= level <= 8
    ensures r == PANDEMONIUM <==> 9 <= level <= 10
    ensures r == CONFUSED <==> level > 10
  {
    ReactionsDistinct();
    if level <= 2 then GOLF_CLAP
    else if level <= 4 then MURMURING
    else if level <= 6 then CHEERING
    else if level <= 8 then OVATION
    else if level <= 10 then PANDEMONIUM
    else CONFUSED
  }

  /** What the crowd does for each kind of event: a pass sets off pandemonium, a
      failure a standing ovation, an epic move or a result pandemonium; only an
      entrance can confuse it. */
  lemma ReactionToEvent(e: Event)
    ensures e.TestAttempt? ==> CrowdReaction(Excitement(e)) == (if e.success then PANDEMONIUM else OVATION)
    ensures e.EpicMove? || e.BattleResult? ==> CrowdReaction(Excitement(e)) == PANDEMONIUM
    ensures CrowdReaction(Excitement(e)) == CONFUSED ==> e.ContenderEnters? && e.entranceLevel > 10
  {
  }
}

=== FILE: auctioneer_contributors.dfy ===
/** The contribution counters of the live feed: one entry per contributor, named on
    first sight and counted on every contribution. */
module AuctioneerContributors {
  import opened Binary

  /** The integer part of `ContributorStats`; the wave strength, emotional impact,
      last-seen time and specialty are floats or clock readings. */
  datatype Contributor = Contributor(id: Bytes, name: string, totalContributions: U64)

  type Contributors = map<Bytes, Contributor>

  /** How a newcomer is named; the auctioneer passes `QuantumName`. */
  type Naming = Bytes -> string

  /** The counter update of `process_contribution`: a first contribution enters the
      contributor with its generated name and a count of zero, then the count goes
      up by one, wrapping at 2^64. */
  function Contribute(m: Contributors, id: Bytes, naming: Naming): (r: Contributors)
  {
    var before := if id in m then m[id] else Contributor(id, naming(id), 0);
    m[id := before.(totalContributions := (before.totalContributions + 1) % TWO_64)]
  }

  /** The entry a contribution leaves for its id: a newcomer is entered under its own
      id with its generated name and a count of one; a known contributor keeps its
      id and name and counts one more, wrapping at 2^64. */
  lemma ContributeEntry(m: Contributors, id: Bytes, naming: Naming)
    ensures id in Contribute(m, id, naming)
    ensures id !in m ==> Contribute(m, id, naming)[id] == Contributor(id, naming(id), 1)
    ensures id in m ==> Contribute(m, id, naming)[id].id == m[id].id
    ensures id in m ==> Contribute(m, id, naming)[id].name == m[id].name
    ensures id in m ==> Contribute(m, id, naming)[id].totalContributions == (m[id].totalContributions + 1) % TWO_64
  {
  }

  /** A contribution adds only its own id and leaves every other contributor as it was. */
  lemma ContributeFrame(m: Contributors, id: Bytes, naming: Naming, other: Bytes)
    ensures other in Contribute(m, id, naming) <==> other in m || other == id
    ensures other in m && other != id ==> Contribute(m, id, naming)[other] == m[other]
  {
  }

  /** The contributors after `ids` contribute in turn. */
  function ContributeAll(m: Contributors, ids: seq<Bytes>, naming: Naming): Contributors
    decreases |ids|
  {
    if |ids| == 0 then m else ContributeAll(Contribute(m, ids[0], naming), ids[1..], naming)
  }

  function CountBefore(m: Contributors, id: Bytes): U64
  {
    if id in m then m[id].totalContributions else 0
  }

  lemma ModAddLeft64(a: nat, b: nat)
    ensures (a % TWO_64 + b) % TWO_64 == (a + b) % TWO_64
  {
    var q := a / TWO_64;
    assert a == q * TWO_64 + a % TWO_64;
    assert a + b == (a % TWO_64 + b) + q * TWO_64;
  }

  /** The name an id has, or would get on its first contribution. */
  function NameOf(m: Contributors, id: Bytes, naming: Naming): string
  {
    if id in m then m[id].name else naming(id)
  }

  lemma ContributeStep(m: Contributors, x: Bytes, naming: Naming, id: Bytes)
    ensures id in Contribute(m, x, naming) <==> id in m || id == x
    ensures CountBefore(Contribute(m, x, naming), id) ==
      if id == x then (CountBefore(m, id) + 1) % TWO_64 else CountBefore(m, id)
    ensures NameOf(Contribute(m, x, naming), id, naming) == NameOf(m, id, naming)
  {
  }

  /** After a run of contributions, an id is known exactly when it was known before
      or contributed. */
  lemma {:induction false} ContributeAllKnown(m: Contributors, ids: seq<Bytes>, naming: Naming, id: Bytes)
    ensures id in ContributeAll(m, ids, naming) <==> id in m || id in ids
    decreases |ids|
  {
    if |ids| > 0 {
      ContributeStep(m, ids[0], naming, id);
      ContributeAllKnown(Contribute(m, ids[0], naming), ids[1..], naming, id);
      OccurrencesOfHead(ids, id);
    }
  }

  /** Each contribution adds one to the count, modulo 2^64. */
  lemma {:induction false} ContributeAllCount(m: Contributors, ids: seq<Bytes>, naming: Naming, id: Bytes)
    ensures CountBefore(ContributeAll(m, ids, naming), id) == (CountBefore(m, id) + multiset(ids)[id]) % TWO_64
    decreases |ids|
  {
    if |ids| == 0 {
      assert multiset(ids)[id] == 0;
    } else {
      var next := Contribute(m, ids[0], naming);
      ContributeStep(m, ids[0], naming, id);
      ContributeAllCount(next, ids[1..], naming, id);
      OccurrencesOfHead(ids, id);
      assert ContributeAll(m, ids, naming) == ContributeAll(next, ids[1..], naming);
      CountAfterStep(CountBefore(ContributeAll(m, ids, naming), id), CountBefore(next, id),
        CountBefore(m, id), multiset(ids[1..])[id], multiset(ids)[id], id == ids[0]);
    }
  }

  /** An id keeps the name it got first. */
  lemma {:induction false} ContributeAllName(m: Contributors, ids: seq<Bytes>, naming: Naming, id: Bytes)
    ensures NameOf(ContributeAll(m, ids, naming), id, naming) == NameOf(m, id, naming)
    decreases |ids|
  {
    if |ids| > 0 {
      ContributeStep(m, ids[0], naming, id);
      ContributeAllName(Contribute(m, ids[0], naming), ids[1..], naming, id);
    }
  }

  /** The arithmetic of one step of `ContributeAllCount`, kept apart from the maps. */
  lemma CountAfterStep(total: nat, next: nat, before: nat, later: nat, all: nat, hit: bool)
    requires total == (next + later) % TWO_64
    requires next == if hit then (before + 1) % TWO_64 else before
    requires all == later + (if hit then 1 else 0)
    ensures total == (before + all) % TWO_64
  {
    if hit {
      ModAddLeft64(before + 1, later);
    }
  }

  lemma OccurrencesOfHead<T>(s: seq<T>, x: T)
    requires |s| > 0
    ensures multiset(s)[x] == multiset(s[1..])[x] + (if s[0] == x then 1 else 0)
    ensures x in s <==> x == s[0] || x in s[1..]
  {
    assert s == [s[0]] + s[1..];
  }

  lemma OccurrencesAtMostLength<T>(s: seq<T>, x: T)
    ensures multiset(s)[x] <= |s|
  {
    assert multiset(s)[x] <= |multiset(s)|;
  }

  /** From no contributors, fewer than 2^64 contributions: every count is the
      number of times that id contributed, and the name is the one generated for
      the id. */
  lemma CountsAreContributions(ids: seq<Bytes>, naming: Naming, id: Bytes)
    requires |ids| < TWO_64
    ensures id in ContributeAll(map[], ids, naming) <==> id in ids
    ensures id in ids ==> ContributeAll(map[], ids, naming)[id].totalContributions == multiset(ids)[id]
    ensures id in ids ==> ContributeAll(map[], ids, naming)[id].name == naming(id)
  {
    ContributeAllKnown(map[], ids, naming, id);
    if id in ids {
      CountFromNothing(ids, naming, id);
      NameFromNothing(ids, naming, id);
    }
  }

  lemma CountFromNothing(ids: seq<Bytes>, naming: Naming, id: Bytes)
    requires |ids| < TWO_64 && id in ids
    ensures id in ContributeAll(map[], ids, naming)
    ensures ContributeAll(map[], ids, naming)[id].totalContributions == multiset(ids)[id]
  {
    var none: Contributors := map[];
    ContributeAllKnown(none, ids, naming, id);
    ContributeAllCount(none, ids, naming, id);
    OccurrencesAtMostLength(ids, id);
    CountOfKnown(ContributeAll(none, ids, naming), id, CountBefore(none, id), multiset(ids)[id]);
  }

  lemma NameFromNothing(ids: seq<Bytes>, naming: Naming, id: Bytes)
    requires id in ids
    ensures id in ContributeAll(map[], ids, naming)
    ensures ContributeAll(map[], ids, naming)[id].name == naming(id)
  {
    var none: Contributors := map[];
    ContributeAllKnown(none, ids, naming, id);
    ContributeAllName(none, ids, naming, id);
  }

  /** The count of a known id that was counted up from zero, below 2^64. */
  lemma CountOfKnown(r: Contributors, id: Bytes, zero: nat, k: nat)
    requires id in r && zero == 0 && k < TWO_64
    requires CountBefore(r, id) == (zero + k) % TWO_64
    ensures r[id].totalContributions == k
  {
  }
}

=== FILE: auctioneer_history.dfy ===
/** The live feed's bounded event history: events are appended at the back, the
    oldest dropped past the cap, and the recent ones read back newest first. */
module AuctioneerHistory {

  const HISTORY_CAP: nat := 1000

  function Min(a: nat, b: nat): nat { if a <= b then a else b }

  /** `add_event`: push the event at the back, then drop the front one if the
      history has grown past the cap. The result is the newest part of the old
      history followed by the event. */
  function AddEvent<T>(history: seq<T>, e: T): (r: seq<T>)
    ensures |history| < HISTORY_CAP ==> |r| == |history| + 1
    ensures |history| >= HISTORY_CAP ==> |r| == |history|
    ensures |history| < HISTORY_CAP ==> r == history + [e]
    ensures |history| >= HISTORY_CAP ==> r == history[1..] + [e]
  {
    var pushed := history + [e];
    if |pushed| > HISTORY_CAP then pushed[1..] else pushed
  }

  /** The history after adding `events` one at a time, oldest first. */
  function AddAll<T>(history: seq<T>, events: seq<T>): seq<T>
    decreases |events|
  {
    if |events| == 0 then history
    else AddAll(AddEvent(history, events[0]), events[1..])
  }

  /** Starting from any history within the cap, adding events keeps exactly the
      newest `HISTORY_CAP` of old and new together, in arrival order. */
  lemma {:induction false} AddAllKeepsNewest<T>(history: seq<T>, events: seq<T>)
    requires |history| <= HISTORY_CAP
    ensures var all := history + events;
            AddAll(history, events) == all[|all| - Min(|all|, HISTORY_CAP)..]
    decreases |events|
  {
    var all := history + events;
    if |events| == 0 {
      assert all == history;
    } else {
      var next := AddEvent(history, events[0]);
      AddAllKeepsNewest(next, events[1..]);
      var drop := |history| + 1 - |next|;
      DropThenAppend(history, events, drop);
      NewestAfterDrop(all, drop, HISTORY_CAP);
    }
  }

  /** Dropping from the front before appending the rest of `events` is dropping
      from the front of the whole. */
  lemma DropThenAppend<T>(history: seq<T>, events: seq<T>, drop: nat)
    requires |events| > 0 && drop <= |history| + 1
    ensures (history + [events[0]])[drop..] + events[1..] == (history + events)[drop..]
  {
    assert history + [events[0]] + events[1..] == history + events;
  }

  /** Dropping the oldest element of a sequence longer than `cap` keeps its newest
      `cap` elements. */
  lemma NewestAfterDrop<T>(all: seq<T>, drop: nat, cap: nat)
    requires drop <= 1 && drop <= |all|
    requires drop == 1 ==> |all| > cap
    ensures var rest := all[drop..]; rest[|rest| - Min(|rest|, cap)..] == all[|all| - Min(|all|, cap)..]
  {
    if drop == 1 {
      assert Min(|all| - 1, cap) == cap && Min(|all|, cap) == cap;
      assert all[1..][|all| - 1 - cap..] == all[|all| - cap..];
    } else {
      assert all[0..] == all;
    }
  }

  /** From an empty history, the feed holds the last thousand events. */
  lemma HistoryIsNewestEvents<T>(events: seq<T>)
    ensures |AddAll([], events)| == Min(|events|, HISTORY_CAP)
    ensures AddAll([], events) == events[|events| - Min(|events|, HISTORY_CAP)..]
  {
    AddAllKeepsNewest([], events);
    assert [] + events == events;
  }

  /** `get_recent_events`: up to `count` events, newest first. */
  function RecentEvents<T>(history: seq<T>, count: nat): (r: seq<T>)
    ensures |r| == Min(count, |history|)
    ensures forall k :: 0 <= k < |r| ==> r[k] == history[|history| - 1 - k]
  {
    if count == 0 || |history| == 0 then []
    else [history[|history| - 1]] + RecentEvents(history[..|history| - 1], count - 1)
  }

  /** Asking for `count` events after the feed has seen `events` gives the last
      `count` of them (at most the thousand kept), newest first. */
  lemma RecentOfFeed<T>(events: seq<T>, count: nat)
    ensures var r := RecentEvents(AddAll([], events), count);
            |r| == Min(count, Min(|events|, HISTORY_CAP))
            && forall k :: 0 <= k < |r| ==> r[k] == events[|events| - 1 - k]
  {
    HistoryIsNewestEvents(events);
    RecentOfSuffix(events, AddAll([], events), count);
  }

  /** The recent events of a history that is a suffix of `events` are the last
      ones of `events`, newest first. */
  lemma RecentOfSuffix<T>(events: seq<T>, h: seq<T>, count: nat)
    requires |h| <= |events| && h == events[|events| - |h|..]
    ensures var r := RecentEvents(h, count);
            |r| == Min(count, |h|)
            && forall k :: 0 <= k < |r| ==> r[k] == events[|events| - 1 - k]
  {
    var r := RecentEvents(h, count);
    forall k | 0 <= k < |r|
      ensures r[k] == events[|events| - 1 - k]
    {
      assert r[k] == h[|h| - 1 - k];
    }
  }
}

=== FILE: binary.dfy ===
/** Bytes, fixed-width unsigned integers and their little-endian encodings,
    as written by Rust's `to_le_bytes` and read by `from_le_bytes`. */
module Binary {

  type Byte = b: int | 0 <= b < 256
  type Bytes = seq<Byte>

  const TWO_32: nat := 0x1_0000_0000
  const TWO_64: nat := 0x1_0000_0000_0000_0000

  type U32 = n: int | 0 <= n < TWO_32
  type U64 = n: int | 0 <= n < TWO_64

  /** A SHA-256 digest: exactly 32 bytes (`[u8; 32]`). */
  type Digest = s: Bytes | |s| == 32 witness Zeros(32)

  function Zeros(k: nat): (r: Bytes)
    ensures |r| == k
  {
    seq(k, _ => 0)
  }

  function Pow256(k: nat): (r: nat)
    ensures r > 0
  {
    if k == 0 then 1 else 256 * Pow256(k - 1)
  }

  lemma Pow256Widths()
    ensures Pow256(4) == TWO_32
    ensures Pow256(8) == TWO_64
  {
    assert Pow256(2) == 65536 by { assert Pow256(1) == 256; }
    assert Pow256(4) == TWO_32 by { assert Pow256(3) == 256 * 65536; }
    assert Pow256(6) == 0x1_0000_0000_0000 by { assert Pow256(5) == 256 * TWO_32; }
    assert Pow256(8) == TWO_64 by { assert Pow256(7) == 256 * 0x1_0000_0000_0000; }
  }

  /** The low `k` bytes of `n`, least significant first. For `k == 4` this is
      `(n as u32).to_le_bytes()`: bits above the width are dropped. */
  function ToLe(n: nat, k: nat): (r: Bytes)
    ensures |r| == k
  {
    if k == 0 then [] else [n % 256] + ToLe(n / 256, k - 1)
  }

  /** The unsigned value of a little-endian byte string (`from_le_bytes`). */
  function FromLe(s: Bytes): nat
  {
    if |s| == 0 then 0 else s[0] + 256 * FromLe(s[1..])
  }

  lemma {:induction false} FromLeBound(s: Bytes)
    ensures FromLe(s) < Pow256(|s|)
  {
    if |s| > 0 {
      FromLeBound(s[1..]);
    }
  }

  /** Reading back `k` little-endian bytes gives the value, as long as it fits in `k` bytes. */
  lemma {:induction false} FromLeToLe(n: nat, k: nat)
    requires n < Pow256(k)
    ensures FromLe(ToLe(n, k)) == n
  {
    if k > 0 {
      var r := ToLe(n, k);
      assert r[1..] == ToLe(n / 256, k - 1);
      FromLeToLe(n / 256, k - 1);
    }
  }
}

=== FILE: consent.dfy ===
/** Consent bookkeeping: records keyed by (user, operation), a default policy for
    keys without a granting record, and the text of a consent prompt. Times are
    nanoseconds on the caller's clock (`now`). */
module Consent {
  import opened Wrappers
  import opened Text

  datatype ConsentType = Upload | QuantumCompress | MemoryStore | CrossSensory | ShareContext

  const ALL_OPERATIONS: set<ConsentType> := {Upload, QuantumCompress, MemoryStore, CrossSensory, ShareContext}

  /** `timestamp` is when the record was written, `duration` how long it lasts. */
  datatype Record = Record(granted: bool, timestamp: nat, duration: Option<nat>, purpose: string, conditions: seq<string>)

  datatype Policy = AlwaysAsk | ImplicitAllow | TimeLimited(d: nat)

  type Key = (string, ConsentType)

  datatype Manager = Manager(records: map<Key, Record>, policy: Policy)

  const NANOS_PER_SECOND: nat := 1_000_000_000

  /** The application-wide manager: implicit consent for one hour. */
  const DEFAULT_MANAGER: Manager := Manager(map[], TimeLimited(3600 * NANOS_PER_SECOND))

  const IMPLICIT_PURPOSE: string := "Implicit consent per policy"

  function NewManager(policy: Policy): (m: Manager)
    ensures m.records == map[] && m.policy == policy
  {
    Manager(map[], policy)
  }

  /** `now.duration_since(ts)`, or zero when the clock reads earlier than `ts`. */
  function Elapsed(now: nat, timestamp: nat): (e: nat)
    ensures now >= timestamp ==> timestamp + e == now
    ensures now < timestamp ==> e == 0
  {
    if now >= timestamp then now - timestamp else 0
  }

  lemma AllOperationsListed()
    ensures forall op: ConsentType :: op in ALL_OPERATIONS
  {
    forall op: ConsentType
      ensures op in ALL_OPERATIONS
    {
      match op
      case Upload =>
      case QuantumCompress =>
      case MemoryStore =>
      case CrossSensory =>
      case ShareContext =>
    }
  }

  /** Granted, and either unlimited or not yet run out. */
  predicate Active(r: Record, now: nat)
  {
    r.granted && (r.duration.None? || Elapsed(now, r.timestamp) < r.duration.value)
  }

  /** `grant_consent`: write a granted record for exactly this key. */
  function Grant(m: Manager, user: string, op: ConsentType, purpose: string, duration: Option<nat>,
                 conditions: seq<string>, now: nat): (r: Manager)
    ensures (user, op) in r.records
    ensures r.records[(user, op)] == Record(true, now, duration, purpose, conditions)
    ensures r.records.Keys == m.records.Keys + {(user, op)}
    ensures forall k :: k in m.records && k != (user, op) ==> r.records[k] == m.records[k]
    ensures r.policy == m.policy
  {
    m.(records := m.records[(user, op) := Record(true, now, duration, purpose, conditions)])
  }

  /** `revoke_consent`: clear `granted` on an existing record; nothing else changes. */
  function Revoke(m: Manager, user: string, op: ConsentType): (r: Manager)
    ensures (user, op) !in m.records ==> r == m
    ensures r.records.Keys == m.records.Keys && r.policy == m.policy
    ensures (user, op) in m.records ==> r.records[(user, op)] == m.records[(user, op)].(granted := false)
    ensures forall k :: k in m.records && k != (user, op) ==> r.records[k] == m.records[k]
  {
    if (user, op) in m.records
    then m.(records := m.records[(user, op) := m.records[(user, op)].(granted := false)])
    else m
  }

  /** A granted record exists for the key: it decides `check_consent` on its own. */
  predicate Granting(m: Manager, user: string, op: ConsentType)
  {
    (user, op) in m.records && m.records[(user, op)].granted
  }

  /** `check_consent`: a granted record answers on its own, by whether it is still
      in force; otherwise the policy answers, and `TimeLimited` first writes an
      implicit grant lasting its duration. Nothing but that grant is ever written. */
  function Check(m: Manager, user: string, op: ConsentType, now: nat): (r: (Manager, bool))
    ensures r.1 <==> (Granting(m, user, op) && Active(m.records[(user, op)], now))
                     || (!Granting(m, user, op) && !m.policy.AlwaysAsk?)
    ensures r.0.policy == m.policy
    ensures r.0.records.Keys <= m.records.Keys + {(user, op)}
    ensures forall k :: k in m.records && k != (user, op) ==> k in r.0.records && r.0.records[k] == m.records[k]
    ensures !r.1 ==> r.0 == m
    ensures Granting(m, user, op) ==> r.0 == m
    ensures !Granting(m, user, op) && m.policy.TimeLimited? ==>
      (user, op) in r.0.records && r.0.records[(user, op)] == Record(true, now, Some(m.policy.d), IMPLICIT_PURPOSE, [])
    ensures r.0 != m ==>
      m.policy.TimeLimited? && (user, op) in r.0.records &&
      r.0.records[(user, op)].granted && r.0.records[(user, op)].duration == Some(m.policy.d)
  {
    var key := (user, op);
    if key in m.records && m.records[key].granted then
      (m, Active(m.records[key], now))
    else
      match m.policy
      case AlwaysAsk => (m, false)
      case ImplicitAllow => (m, true)
      case TimeLimited(d) => (Grant(m, user, op, IMPLICIT_PURPOSE, Some(d), [], now), true)
  }

  /** `get_user_consents`: the user's records in force, by operation. */
  function UserConsents(m: Manager, user: string, now: nat): (r: map<ConsentType, Record>)
    ensures forall op :: op in r <==> (user, op) in m.records && Active(m.records[(user, op)], now)
    ensures forall op :: op in r ==> r[op] == m.records[(user, op)]
  {
    AllOperationsListed();
    map op | op in ALL_OPERATIONS && (user, op) in m.records && Active(m.records[(user, op)], now)
      :: m.records[(user, op)]
  }

  /** `cleanup_expired`: keep exactly the records in force. */
  function Cleanup(m: Manager, now: nat): (r: Manager)
    ensures forall k :: k in r.records <==> k in m.records && Active(m.records[k], now)
    ensures forall k :: k in r.records ==> r.records[k] == m.records[k]
    ensures r.policy == m.policy
  {
    m.(records := map k | k in m.records && Active(m.records[k], now) :: m.records[k])
  }

  // ---------------------------------------------------------------- lemmas

  /** A granting record decides whatever the policy: two managers holding it give the
      same answer and neither changes. */
  lemma RecordDecides(m: Manager, p: Policy, user: string, op: ConsentType, now: nat)
    requires (user, op) in m.records && m.records[(user, op)].granted
    ensures Check(m, user, op, now).1 == Check(m.(policy := p), user, op, now).1
    ensures Check(m, user, op, now).0 == m
    ensures m.records[(user, op)].duration.None? ==> Check(m, user, op, now).1
  {
  }

  /** Under `AlwaysAsk` with no granting record the answer is no and nothing is
      written. */
  lemma AlwaysAskDenies(m: Manager, user: string, op: ConsentType, now: nat)
    requires m.policy == AlwaysAsk
    requires (user, op) !in m.records || !m.records[(user, op)].granted
    ensures Check(m, user, op, now) == (m, false)
  {
  }

  /** Under `TimeLimited(d)` the implicit grant answers yes for `d` nanoseconds and
      no from then on. */
  lemma ImplicitGrantExpires(m: Manager, user: string, op: ConsentType, now: nat, later: nat)
    requires m.policy.TimeLimited? && now <= later
    requires (user, op) !in m.records || !m.records[(user, op)].granted
    ensures Check(m, user, op, now).1
    ensures Check(m, user, op, now).0.records[(user, op)].duration == Some(m.policy.d)
    ensures Check(Check(m, user, op, now).0, user, op, later).1 <==> later - now < m.policy.d
  {
  }

  /** A revoked record does not deny by itself: the policy answers again. */
  lemma RevokedFallsBackToPolicy(m: Manager, user: string, op: ConsentType, now: nat)
    ensures m.policy == ImplicitAllow ==> Check(Revoke(m, user, op), user, op, now).1
    ensures m.policy == AlwaysAsk ==> !Check(Revoke(m, user, op), user, op, now).1
    ensures m.policy.TimeLimited? ==> Check(Revoke(m, user, op), user, op, now).1
  {
  }

  /** Revoking a key that has no record changes nothing. */
  lemma RevokeAbsent(m: Manager, user: string, op: ConsentType)
    requires (user, op) !in m.records
    ensures Revoke(m, user, op) == m
  {
  }

  lemma CleanupIdempotent(m: Manager, now: nat)
    ensures Cleanup(Cleanup(m, now), now) == Cleanup(m, now)
  {
    var once := Cleanup(m, now);
    assert Cleanup(once, now).records == once.records;
  }

  /** Cleaning up keeps every answer backed by a record in force. */
  lemma CleanupKeepsActiveAnswers(m: Manager, user: string, op: ConsentType, now: nat)
    requires (user, op) in m.records && Active(m.records[(user, op)], now)
    ensures Check(Cleanup(m, now), user, op, now).1 == Check(m, user, op, now).1
  {
  }

  /** The scenario of the consent module's own test: under `AlwaysAsk`, no consent at first,
      consent after a 60-second grant, and none for another operation. */
  lemma ConsentFlow(now: nat)
    ensures !Check(NewManager(AlwaysAsk), "user1", Upload, now).1
    ensures var m := Grant(NewManager(AlwaysAsk), "user1", Upload, "Testing", Some(60 * NANOS_PER_SECOND), [], now);
            Check(m, "user1", Upload, now).1 && !Check(m, "user1", QuantumCompress, now).1
  {
    var m := Grant(NewManager(AlwaysAsk), "user1", Upload, "Testing", Some(60 * NANOS_PER_SECOND), [], now);
    assert ("user1", QuantumCompress) !in m.records;
  }

  // ---------------------------------------------------------------- prompt

  datatype Request = Request(
    userId: string,
    operation: ConsentType,
    purpose: string,
    dataDescription: string,
    retention: Option<nat>,
    sharing: seq<string>)

  /** `ConsentRequest::new`: everything but user and operation empty. */
  function NewRequest(user: string, op: ConsentType): (r: Request)
    ensures r.userId == user && r.operation == op
    ensures r.purpose == "" && r.dataDescription == "" && r.retention.None? && r.sharing == []
  {
    Request(user, op, "", "", None, [])
  }

  function WithPurpose(r: Request, purpose: string): Request
  {
    r.(purpose := purpose)
  }

  function WithDataDescription(r: Request, description: string): Request
  {
    r.(dataDescription := description)
  }

  function WithRetention(r: Request, period: nat): Request
  {
    r.(retention := Some(period))
  }

  function WithSharing(r: Request, scope: seq<string>): Request
  {
    r.(sharing := scope)
  }

  /** The `Debug` rendering of an operation. */
  function OperationName(op: ConsentType): string
  {
    match op
    case Upload => "Upload"
    case QuantumCompress => "QuantumCompress"
    case MemoryStore => "MemoryStore"
    case CrossSensory => "CrossSensory"
    case ShareContext => "ShareContext"
  }

  /** Whole seconds of the retention period, or "Indefinite". */
  function RetentionText(retention: Option<nat>): string
  {
    match retention
    case None => "Indefinite"
    case Some(d) => NatToString(d / NANOS_PER_SECOND) + " seconds"
  }

  /** The sharing scope joined with ", ", or "No external sharing". */
  function SharingText(scope: seq<string>): string
  {
    if |scope| == 0 then "No external sharing" else Join(scope, ", ")
  }

  /** The four characters the prompt's title starts with in `to_prompt`:
      U+F8FF, 'ü', 'î', 'ê'. */
  const TITLE_MARK: string := "\U{F8FF}\U{FC}\U{EE}\U{EA}"

  /** `ConsentRequest::to_prompt`. */
  function ToPrompt(r: Request): string
  {
    "\n" + TITLE_MARK + " Consent Request\n\nUser: " + r.userId
      + "\nOperation: " + OperationName(r.operation)
      + "\nPurpose: " + r.purpose
      + "\n\nData: " + r.dataDescription
      + "\n\nRetention: " + RetentionText(r.retention)
      + "\nSharing: " + SharingText(r.sharing)
      + "\n\nDo you consent to this operation?\n            "
  }

  lemma RetentionTextEnding(a: Option<nat>)
    ensures |RetentionText(a)| > 0
    ensures RetentionText(a)[|RetentionText(a)| - 1] == (if a.None? then 'e' else 's')
  {
  }

  /** Different retention periods show differently, to the second, and none is
      confused with an unlimited one. */
  lemma RetentionTextDistinguishes(a: Option<nat>, b: Option<nat>)
    requires RetentionText(a) == RetentionText(b)
    ensures a.None? <==> b.None?
    ensures a.Some? ==> a.value / NANOS_PER_SECOND == b.value / NANOS_PER_SECOND
  {
    RetentionTextEnding(a);
    RetentionTextEnding(b);
    if a.Some? && b.Some? {
      var x := NatToString(a.value / NANOS_PER_SECOND);
      var y := NatToString(b.value / NANOS_PER_SECOND);
      assert x + " seconds" == y + " seconds";
      assert |x| == |y|;
      assert x == (x + " seconds")[..|x|];
      assert y == (y + " seconds")[..|y|];
      NatToStringInjective(a.value / NANOS_PER_SECOND, b.value / NANOS_PER_SECOND);
    }
  }

  /** A request built from `new` and the four `with_` setters carries exactly what
      was given. */
  lemma BuiltRequest(user: string, op: ConsentType, purpose: string, description: string,
                     period: nat, scope: seq<string>)
    ensures WithSharing(WithRetention(WithDataDescription(WithPurpose(NewRequest(user, op), purpose),
              description), period), scope)
            == Request(user, op, purpose, description, Some(period), scope)
  {
  }

  /** A non-empty scope is listed starting with its first entry. */
  lemma SharingTextNamesFirst(scope: seq<string>)
    requires |scope| > 0
    ensures |SharingText(scope)| >= |scope[0]| && SharingText(scope)[..|scope[0]|] == scope[0]
  {
    JoinStartsWithFirst(scope, ", ");
  }

  /** A fresh request's prompt shows "Indefinite" retention and "No external sharing";
      a request with a retention period never shows "Indefinite". */
  lemma FreshRequestPrompt(user: string, op: ConsentType, r: Request)
    ensures RetentionText(NewRequest(user, op).retention) == "Indefinite"
    ensures SharingText(NewRequest(user, op).sharing) == "No external sharing"
    ensures r.retention.Some? ==> RetentionText(r.retention) != "Indefinite"
  {
    RetentionTextEnding(r.retention);
  }
}

=== FILE: foreign.dfy ===
/** The libraries the codecs call into (zlib through flate2, bincode, sha2). Their
    algorithms are not part of this model: each is a function handed to the codecs,
    and the properties the codecs rely on are stated as predicates over it. */
module Foreign {
  import opened Binary
  import opened Wrappers

  /** SHA-256 over a byte string. */
  type Hash = Bytes -> Digest

  /** zlib at `Compression::best()`. Compressing into an in-memory `Vec` cannot fail;
      inflating arbitrary bytes can. */
  datatype Compressor = Compressor(compress: Bytes -> Bytes, decompress: Bytes -> Option<Bytes>)

  ghost predicate Lossless(z: Compressor)
  {
    forall x :: z.decompress(z.compress(x)) == Some(x)
  }

  /** bincode for one type: `serialize` and `deserialize` over the whole slice. */
  datatype Serializer<!T> = Serializer(encode: T -> Bytes, decode: Bytes -> Option<T>)

  ghost predicate RoundTrips<T(!new)>(s: Serializer<T>)
  {
    forall t :: s.decode(s.encode(t)) == Some(t)
  }
}

=== FILE: hex.dfy ===
/** Lower-case hexadecimal text for byte strings, as the HTTP layer renders and
    reads container signatures. Text is handled as its UTF-8 bytes. */
module Hex {
  import opened Binary
  import opened Wrappers

  const PLUS: Byte := 0x2B

  /** Value of a hex digit, either case. */
  function DigitValue(b: Byte): Option<nat>
  {
    if 0x30 <= b <= 0x39 then Some(b - 0x30)
    else if 0x61 <= b <= 0x66 then Some(b - 0x61 + 10)
    else if 0x41 <= b <= 0x46 then Some(b - 0x41 + 10)
    else None
  }

  predicate IsLowerHex(b: Byte)
  {
    0x30 <= b <= 0x39 || 0x61 <= b <= 0x66
  }

  /** The lower-case digit for `d < 16`. */
  function LowerDigit(d: nat): (b: Byte)
    requires d < 16
    ensures IsLowerHex(b) && DigitValue(b) == Some(d)
  {
    if d < 10 then 0x30 + d else 0x61 + d - 10
  }

  /** `format!("{:02x}", b)`. */
  function EncodeByte(b: Byte): (r: Bytes)
    ensures |r| == 2
  {
    [LowerDigit(b / 16), LowerDigit(b % 16)]
  }

  /** `hex::encode`: two lower-case digits per byte, high nibble first. */
  function Encode(bytes: Bytes): (r: Bytes)
    ensures |r| == 2 * |bytes|
    ensures forall k :: 0 <= k < |r| ==> IsLowerHex(r[k])
  {
    if |bytes| == 0 then [] else EncodeByte(bytes[0]) + Encode(bytes[1..])
  }

  /** `u8::from_str_radix(pair, 16)` on a two-byte text: two digits, or a '+' sign
      followed by one digit; anything else is an invalid digit. */
  function PairValue(a: Byte, b: Byte): (r: Option<Byte>)
    ensures r.Some? <==> (a == PLUS || DigitValue(a).Some?) && DigitValue(b).Some?
    ensures a != PLUS && DigitValue(a).Some? && DigitValue(b).Some? ==>
      r == Some(16 * DigitValue(a).value + DigitValue(b).value)
    ensures a == PLUS && DigitValue(b).Some? ==> r == Some(DigitValue(b).value)
  {
    if a == PLUS then
      match DigitValue(b)
      case Some(y) => Some(y)
      case None => None
    else
      match (DigitValue(a), DigitValue(b))
      case (Some(x), Some(y)) => Some(16 * x + y)
      case _ => None
  }

  datatype HexError =
    | OddLength         // a lone digit is left at the end
    | InvalidDigit      // "invalid digit found in string"

  /** `hex::decode` with every slice checked: the pairs are read left to right and
      the first bad one decides the error. */
  function Decode(s: Bytes): (r: Result<Bytes, HexError>)
    ensures r.Success? ==> |r.value| == |s| / 2 && |s| % 2 == 0
    decreases |s|
  {
    if |s| == 0 then Success([])
    else if |s| < 2 then Failure(OddLength)
    else
      match PairValue(s[0], s[1])
      case None => Failure(InvalidDigit)
      case Some(v) =>
        match Decode(s[2..])
        case Failure(e) => Failure(e)
        case Success(rest) => Success([v] + rest)
  }

  /** Every pair of `s` reads as a byte. */
  predicate PairsValid(s: Bytes)
  {
    forall k :: 0 <= k < |s| / 2 ==> PairValue(s[2 * k], s[2 * k + 1]).Some?
  }

  /** Decoding succeeds exactly on even-length text whose every pair is valid. */
  lemma {:induction false} DecodeSucceedsIff(s: Bytes)
    ensures Decode(s).Success? <==> |s| % 2 == 0 && PairsValid(s)
    decreases |s|
  {
    if |s| >= 2 {
      DecodeSucceedsIff(s[2..]);
      if PairValue(s[0], s[1]).Some? && PairsValid(s[2..]) {
        forall k | 0 <= k < |s| / 2
          ensures PairValue(s[2 * k], s[2 * k + 1]).Some?
        {
          if k > 0 {
            assert s[2 * k] == s[2..][2 * (k - 1)];
            assert s[2 * k + 1] == s[2..][2 * (k - 1) + 1];
          }
        }
      }
      if PairsValid(s) {
        assert PairValue(s[2 * 0], s[2 * 0 + 1]).Some?;
        forall k | 0 <= k < |s[2..]| / 2
          ensures PairValue(s[2..][2 * k], s[2..][2 * k + 1]).Some?
        {
          assert s[2..][2 * k] == s[2 * (k + 1)];
          assert s[2..][2 * k + 1] == s[2 * (k + 1) + 1];
        }
      }
    }
  }

  /** ASCII lower-casing of one byte. */
  function AsciiLower(b: Byte): Byte
  {
    if 0x41 <= b <= 0x5A then b + 0x20 else b
  }

  function Lowered(s: Bytes): (r: Bytes)
    ensures |r| == |s|
  {
    seq(|s|, k requires 0 <= k < |s| => AsciiLower(s[k]))
  }

  /** A pair reads the same whatever the case of its digits. */
  lemma PairValueIgnoresCase(a: Byte, b: Byte)
    ensures PairValue(a, b) == PairValue(AsciiLower(a), AsciiLower(b))
  {
  }

  /** Decoding ignores the case of the digits: upper-case text gives the same bytes,
      and the same error, as its lower-case form. */
  lemma {:induction false} DecodeIgnoresCase(s: Bytes)
    ensures Decode(s) == Decode(Lowered(s))
    decreases |s|
  {
    if |s| >= 2 {
      var t := Lowered(s);
      assert t[0] == AsciiLower(s[0]) && t[1] == AsciiLower(s[1]);
      assert t[2..] == Lowered(s[2..]);
      PairValueIgnoresCase(s[0], s[1]);
      DecodeIgnoresCase(s[2..]);
    }
  }

  lemma EncodeByteDecodes(b: Byte)
    ensures PairValue(EncodeByte(b)[0], EncodeByte(b)[1]) == Some(b)
  {
    var e := EncodeByte(b);
    assert e[0] != PLUS;
  }

  /** Decoding an encoding gives back the bytes. */
  lemma {:induction false} DecodeEncode(bytes: Bytes)
    ensures Decode(Encode(bytes)) == Success(bytes)
    decreases |bytes|
  {
    if |bytes| > 0 {
      var s := Encode(bytes);
      assert s[2..] == Encode(bytes[1..]);
      assert s[0] == EncodeByte(bytes[0])[0] && s[1] == EncodeByte(bytes[0])[1];
      EncodeByteDecodes(bytes[0]);
      DecodeEncode(bytes[1..]);
      assert [bytes[0]] + bytes[1..] == bytes;
    }
  }

  /** On even-length lower-case hex text, encoding the decoded bytes gives the text
      back: the two are inverse on that set. */
  lemma {:induction false} EncodeDecode(s: Bytes)
    requires |s| % 2 == 0
    requires forall k :: 0 <= k < |s| ==> IsLowerHex(s[k])
    ensures Decode(s).Success? && Encode(Decode(s).value) == s
    decreases |s|
  {
    if |s| > 0 {
      EncodeDecode(s[2..]);
      var v := LowerPairRoundTrip(s[0], s[1]);
      assert Decode(s).value == [v] + Decode(s[2..]).value;
      assert Encode(Decode(s).value) == EncodeByte(v) + Encode(Decode(s[2..]).value);
      assert s == [s[0], s[1]] + s[2..];
    }
  }

  /** Two lower-case digits read as a byte that prints as the same two digits. */
  lemma LowerPairRoundTrip(a: Byte, b: Byte) returns (v: Byte)
    requires IsLowerHex(a) && IsLowerHex(b)
    ensures PairValue(a, b) == Some(v) && EncodeByte(v) == [a, b]
  {
    var x := DigitValue(a).value;
    var y := DigitValue(b).value;
    v := 16 * x + y;
    assert v / 16 == x && v % 16 == y;
  }

  // -------------------------------------------- `hex::decode` as written

  /** Where the text could be split between two characters: at the end or before a
      byte that does not continue a UTF-8 sequence. */
  predicate SplitsAt(s: Bytes, p: nat)
  {
    p == |s| || (p < |s| && !(0x80 <= s[p] <= 0xBF))
  }

  /** `hex::decode` as written: it slices `s[i..i + 2]` for `i = 0, 2, 4, ...` while
      `i < s.len()`, so it panics on odd length and on a pair that would cut a
      multi-byte character; the collection stops at the first error, so a bad pair
      earlier in the text is reported before any later panic. */
  function DecodeAsWritten(s: Bytes): Outcome<Bytes, HexError>
    decreases |s|
  {
    if |s| == 0 then Returns(Success([]))
    else if |s| < 2 || !SplitsAt(s, 0) || !SplitsAt(s, 2) then Panics
    else
      match PairValue(s[0], s[1])
      case None => Returns(Failure(InvalidDigit))
      case Some(v) =>
        match DecodeAsWritten(s[2..])
        case Panics => Panics
        case Returns(Failure(e)) => Returns(Failure(e))
        case Returns(Success(rest)) => Returns(Success([v] + rest))
  }

  /** Where `hex::decode` returns, the checked decoder returns the same; where it
      panics, the checked decoder reports an error. */
  lemma {:induction false} DecodeAgrees(s: Bytes)
    ensures DecodeAsWritten(s).Returns? ==> DecodeAsWritten(s).result == Decode(s)
    ensures DecodeAsWritten(s).Panics? ==> Decode(s).Failure?
    decreases |s|
  {
    if |s| >= 2 {
      DecodeAgrees(s[2..]);
    }
  }

  /** On ASCII text `hex::decode` panics exactly when the checked decoder reports an odd
      length. */
  lemma {:induction false} AsciiPanicsOnlyOnOddLength(s: Bytes)
    requires forall k :: 0 <= k < |s| ==> s[k] < 0x80
    ensures DecodeAsWritten(s).Panics? <==> Decode(s) == Failure(OddLength)
    decreases |s|
  {
    if |s| >= 2 {
      AsciiPanicsOnlyOnOddLength(s[2..]);
    }
  }

  /** "abc": `hex::decode` panics slicing past the end; the checked decoder says odd
      length. */
  lemma OddLengthPanics()
    ensures DecodeAsWritten([0x61, 0x62, 0x63]).Panics?
    ensures Decode([0x61, 0x62, 0x63]) == Failure(OddLength)
  {
    var s: Bytes := [0x61, 0x62, 0x63];
    assert s[2..] == [0x63];
  }

  /** "aé0" (61 C3 A9 30): the first pair would cut 'é' in half. */
  lemma SplitCharacterPanics()
    ensures DecodeAsWritten([0x61, 0xC3, 0xA9, 0x30]).Panics?
    ensures Decode([0x61, 0xC3, 0xA9, 0x30]) == Failure(InvalidDigit)
  {
  }

  /** The sign quirk of `from_str_radix`: "+f" reads as 0x0f. */
  lemma PlusSignAccepted()
    ensures Decode([PLUS, 0x66]) == Success([15])
  {
    var s: Bytes := [PLUS, 0x66];
    assert DigitValue(0x66) == Some(15);
    assert PairValue(PLUS, 0x66) == Some(15);
    assert s[2..] == [];
    assert Decode(s[2..]) == Success([]);
    assert Decode(s) == Success([15] + []);
    assert [15] + [] == [15];
  }
}

=== FILE: m8.dfy ===
/** MEM8 containers (.m8): a typed payload with a header and a 32-byte signature,
    framed as

      "M8C1" | header length (u32 LE) | header | signature (32 bytes) | data length (u64 LE) | data

    with the header bincode-serialized. */
module M8 {
  import opened Binary
  import opened Wrappers
  import opened Foreign
  import opened Text
  import Utf8
  import Markqant

  /** "M8C1". */
  const MAGIC: Bytes := [0x4D, 0x38, 0x43, 0x31]

  const VERSION: Byte := 1

  datatype ContentType = Marqant | WavePattern | Language | Visual | Audio | Compound

  /** Every content type, each once. */
  const ALL_TYPES: seq<ContentType> := [Marqant, WavePattern, Language, Visual, Audio, Compound]

  /** The `Debug` rendering of a content type. */
  function TypeName(t: ContentType): (name: string)
    ensures |name| > 0 && IsAscii(name)
  {
    match t
    case Marqant => "Marqant"
    case WavePattern => "WavePattern"
    case Language => "Language"
    case Visual => "Visual"
    case Audio => "Audio"
    case Compound => "Compound"
  }

  lemma TypeNameInjective(s: ContentType, t: ContentType)
    requires TypeName(s) == TypeName(t)
    ensures s == t
  {
  }

  lemma AllTypesListed(t: ContentType)
    ensures t in ALL_TYPES
  {
  }

  /** Valence, arousal and dominance, one byte each. */
  type Emotion = s: Bytes | |s| == 3 witness [128, 128, 128]

  const NEUTRAL: Emotion := [128, 128, 128]

  /** `timestamp` is the `SystemTime` of creation, in nanoseconds since the epoch. */
  datatype Header = Header(
    version: Byte,
    contentType: ContentType,
    timestamp: nat,
    memoryIds: seq<U64>,
    emotionalContext: Emotion,
    metadata: map<string, string>)

  datatype Container = Container(header: Header, data: Bytes, waveSignature: Digest)

  /** A MEM8 wave pattern; each component is the bit pattern of an `f32`. */
  datatype Wave = Wave(amplitude: U32, frequency: U32, phase: U32)

  /** What the MEM8 engine offers here: storing text with an importance gives an id or
      fails; looking up an id's wave pattern may fail. */
  datatype Engine = Engine(storeLanguage: (Bytes, Byte) -> Option<U64>, wavePattern: U64 -> Option<Wave>)

  datatype Codecs = Codecs(sha256: Hash, headers: Serializer<Header>, marqant: Markqant.Codecs)

  datatype Error =
    | InvalidFormat            // "Invalid M8 container format"
    | Truncated                // a field runs past the end of the buffer
    | BadHeader                // "Failed to deserialize header"
    | StoreFailed              // "Failed to store language"
    | Document(e: Markqant.Error)

  // ---------------------------------------------------------- constructors

  /** `M8Container::from_text`: a Language container holding the text's bytes. */
  function FromText(c: Codecs, engine: Engine, text: Bytes, importance: Byte, now: nat): (r: Result<Container, Error>)
    requires Utf8.Valid(text)
    ensures r.Failure? <==> engine.storeLanguage(text, importance).None?
    ensures r.Failure? ==> r.error == StoreFailed
    ensures r.Success? ==>
      && r.value.data == text
      && r.value.waveSignature == c.sha256(text)
      && r.value.header.contentType == Language
      && r.value.header.version == VERSION
      && r.value.header.memoryIds == [engine.storeLanguage(text, importance).value]
      && r.value.header.emotionalContext == NEUTRAL
      && r.value.header.timestamp == now
      && r.value.header.metadata == map["source" := "text", "length" := NatToString(|text|)]
  {
    match engine.storeLanguage(text, importance)
    case None => Failure(StoreFailed)
    case Some(id) =>
      var header := Header(VERSION, Language, now, [id], NEUTRAL,
                           map["source" := "text", "length" := NatToString(|text|)]);
      Success(Container(header, text, c.sha256(text)))
  }

  /** `M8Container::from_marqant`: the container holds the document's serialized
      bytes and its signature is their hash; the decoded text is stored in MEM8 with
      importance 7. `ratio` is the compression ratio already rendered with two
      decimals. */
  function FromMarqant(c: Codecs, engine: Engine, doc: Markqant.Marqant, now: nat, ratio: string): (r: Result<Container, Error>)
    ensures r.Success? ==>
      && r.value.data == Markqant.ToBytes(c.marqant, doc)
      && r.value.waveSignature == c.sha256(Markqant.ToBytes(c.marqant, doc))
      && r.value.header.contentType == Marqant
      && r.value.header.version == VERSION
      && r.value.header.timestamp == now
      && r.value.header.emotionalContext == NEUTRAL
      && r.value.header.metadata == map["source" := "marqant", "compression_ratio" := ratio]
    ensures r.Failure? <==>
      Markqant.ToMarkdown(c.marqant, doc).Failure? ||
      engine.storeLanguage(Markqant.ToMarkdown(c.marqant, doc).value, 7).None?
    ensures Markqant.ToMarkdown(c.marqant, doc).Failure? ==> r == Failure(Document(Markqant.Inflate))
    ensures Markqant.ToMarkdown(c.marqant, doc).Success? ==>
      var id := engine.storeLanguage(Markqant.ToMarkdown(c.marqant, doc).value, 7);
      && (id.None? ==> r == Failure(StoreFailed))
      && (id.Some? ==> r.Success? && r.value.header.memoryIds == [id.value])
  {
    var bytes := Markqant.ToBytes(c.marqant, doc);
    match Markqant.ToMarkdown(c.marqant, doc)
    case Failure(e) => Failure(Document(e))
    case Success(markdown) =>
      match engine.storeLanguage(markdown, 7)
      case None => Failure(StoreFailed)
      case Some(id) =>
        var header := Header(VERSION, Marqant, now, [id], NEUTRAL,
                             map["source" := "marqant", "compression_ratio" := ratio]);
        Success(Container(header, bytes, c.sha256(bytes)))
  }

  /** The twelve bytes a wave contributes: amplitude, frequency, phase, each LE. */
  function WaveBytes(w: Wave): (b: Bytes)
    ensures |b| == 12
  {
    ToLe(w.amplitude, 4) + ToLe(w.frequency, 4) + ToLe(w.phase, 4)
  }

  function WaveFromBytes(b: Bytes): Wave
    requires |b| == 12
  {
    FromLeBound(b[..4]);
    FromLeBound(b[4..8]);
    FromLeBound(b[8..]);
    Pow256Widths();
    Wave(FromLe(b[..4]), FromLe(b[4..8]), FromLe(b[8..]))
  }

  lemma WaveBytesRoundTrip(w: Wave)
    ensures WaveFromBytes(WaveBytes(w)) == w
  {
    var b := WaveBytes(w);
    Pow256Widths();
    assert b[..4] == ToLe(w.amplitude, 4);
    assert b[4..8] == ToLe(w.frequency, 4);
    assert b[8..] == ToLe(w.phase, 4);
    FromLeToLe(w.amplitude, 4);
    FromLeToLe(w.frequency, 4);
    FromLeToLe(w.phase, 4);
  }

  /** The ids the engine resolves, in the given order. */
  function Resolved(engine: Engine, ids: seq<U64>): (r: seq<U64>)
    ensures |r| <= |ids|
  {
    if |ids| == 0 then []
    else
      var last := ids[|ids| - 1];
      Resolved(engine, ids[..|ids| - 1]) + (if engine.wavePattern(last).Some? then [last] else [])
  }

  /** The wave bytes `from_compound` collects: for each id in turn, its wave's twelve
      bytes, or nothing when the engine cannot resolve it. */
  function CompoundData(engine: Engine, ids: seq<U64>): Bytes
  {
    if |ids| == 0 then []
    else
      var last := ids[|ids| - 1];
      CompoundData(engine, ids[..|ids| - 1])
        + (match engine.wavePattern(last) case Some(w) => WaveBytes(w) case None => [])
  }

  /** Collecting over a concatenation concatenates the collections. */
  lemma {:induction false} CompoundDataAppend(engine: Engine, xs: seq<U64>, ys: seq<U64>)
    ensures CompoundData(engine, xs + ys) == CompoundData(engine, xs) + CompoundData(engine, ys)
    ensures Resolved(engine, xs + ys) == Resolved(engine, xs) + Resolved(engine, ys)
    decreases |ys|
  {
    if |ys| > 0 {
      var init := ys[..|ys| - 1];
      assert (xs + ys)[..|xs + ys| - 1] == xs + init;
      assert (xs + ys)[|xs + ys| - 1] == ys[|ys| - 1];
      CompoundDataAppend(engine, xs, init);
    } else {
      assert xs + ys == xs;
    }
  }

  /** The collected bytes are, block by block, the waves of the resolved ids in order. */
  lemma {:induction false} CompoundLayout(engine: Engine, ids: seq<U64>)
    ensures |CompoundData(engine, ids)| == 12 * |Resolved(engine, ids)|
    ensures forall k :: 0 <= k < |Resolved(engine, ids)| ==>
      engine.wavePattern(Resolved(engine, ids)[k]).Some?
      && CompoundData(engine, ids)[12 * k..12 * k + 12] == WaveBytes(engine.wavePattern(Resolved(engine, ids)[k]).value)
    decreases |ids|
  {
    if |ids| > 0 {
      var init := ids[..|ids| - 1];
      var last := ids[|ids| - 1];
      CompoundLayout(engine, init);
      var d := CompoundData(engine, init);
      var r := Resolved(engine, init);
      forall k | 0 <= k < |Resolved(engine, ids)|
        ensures engine.wavePattern(Resolved(engine, ids)[k]).Some?
        ensures CompoundData(engine, ids)[12 * k..12 * k + 12] == WaveBytes(engine.wavePattern(Resolved(engine, ids)[k]).value)
      {
        if k < |r| {
          assert Resolved(engine, ids)[k] == r[k];
          assert CompoundData(engine, ids)[12 * k..12 * k + 12] == d[12 * k..12 * k + 12];
        } else {
          assert Resolved(engine, ids)[k] == last;
          assert CompoundData(engine, ids)[12 * k..12 * k + 12] == WaveBytes(engine.wavePattern(last).value);
        }
      }
    }
  }

  /** `M8Container::from_compound`. `emotion` is the context already converted to
      bytes. The header lists every id given, resolved or not; the data holds, block
      by block, the waves of the ids the engine resolves, in order. */
  function FromCompound(c: Codecs, engine: Engine, ids: seq<U64>, emotion: Emotion, now: nat): (m: Container)
    ensures m.header.memoryIds == ids
    ensures m.header.contentType == Compound
    ensures m.header.version == VERSION
    ensures m.header.emotionalContext == emotion
    ensures m.header.timestamp == now
    ensures m.header.metadata == map["source" := "compound", "memory_count" := NatToString(|ids|)]
    ensures m.waveSignature == c.sha256(m.data)
    ensures m.data == CompoundData(engine, ids)
    ensures |m.data| == 12 * |Resolved(engine, ids)|
    ensures forall k :: 0 <= k < |Resolved(engine, ids)| ==>
      engine.wavePattern(Resolved(engine, ids)[k]).Some?
      && m.data[12 * k..12 * k + 12] == WaveBytes(engine.wavePattern(Resolved(engine, ids)[k]).value)
  {
    CompoundLayout(engine, ids);
    var data := CompoundData(engine, ids);
    var header := Header(VERSION, Compound, now, ids, emotion,
                         map["source" := "compound", "memory_count" := NatToString(|ids|)]);
    Container(header, data, c.sha256(data))
  }

  /** An id the engine cannot resolve changes nothing in the data. */
  lemma UnresolvedIdSkipped(c: Codecs, engine: Engine, xs: seq<U64>, bad: U64, ys: seq<U64>, emotion: Emotion, now: nat)
    requires engine.wavePattern(bad).None?
    ensures FromCompound(c, engine, xs + [bad] + ys, emotion, now).data == FromCompound(c, engine, xs + ys, emotion, now).data
  {
    SkipUnresolved(engine, xs, bad, ys);
  }

  lemma SkipUnresolved(engine: Engine, xs: seq<U64>, bad: U64, ys: seq<U64>)
    requires engine.wavePattern(bad).None?
    ensures CompoundData(engine, xs + [bad] + ys) == CompoundData(engine, xs + ys)
  {
    CompoundDataAppend(engine, xs + [bad], ys);
    CompoundDataAppend(engine, xs, [bad]);
    CompoundDataAppend(engine, xs, ys);
    UnresolvedContributesNothing(engine, bad);
    DropEmptyMiddle(CompoundData(engine, xs), CompoundData(engine, [bad]), CompoundData(engine, ys));
  }

  lemma UnresolvedContributesNothing(engine: Engine, bad: U64)
    requires engine.wavePattern(bad).None?
    ensures CompoundData(engine, [bad]) == []
  {
    assert [bad][..0] == [];
  }

  lemma DropEmptyMiddle<T>(a: seq<T>, b: seq<T>, c: seq<T>)
    requires b == []
    ensures a + b + c == a + c
  {
  }

  // -------------------------------------------------------------- framing

  /** `M8Container::to_bytes`: lengths written as `len as u32` and `len as u64`. */
  function ToBytes(c: Codecs, m: Container): (data: Bytes)
    ensures |data| == 48 + |c.headers.encode(m.header)| + |m.data|
    ensures data[..4] == MAGIC
  {
    var h := c.headers.encode(m.header);
    MAGIC + ToLe(|h|, 4) + h + m.waveSignature + ToLe(|m.data|, 8) + m.data
  }

  /** `M8Container::from_bytes` with every read bounds-checked. The signature is
      taken as stored, and bytes after the declared data are not read. */
  function FromBytes(c: Codecs, data: Bytes): Result<Container, Error>
  {
    if |data| < 4 || data[..4] != MAGIC then Failure(InvalidFormat)
    else if |data| < 8 then Failure(Truncated)
    else
      var headerEnd := 8 + FromLe(data[4..8]);
      if headerEnd > |data| then Failure(Truncated)
      else
        match c.headers.decode(data[8..headerEnd])
        case None => Failure(BadHeader)
        case Some(header) =>
          if headerEnd + 40 > |data| then Failure(Truncated)
          else
            var dataEnd := headerEnd + 40 + FromLe(data[headerEnd + 32..headerEnd + 40]);
            if dataEnd > |data| then Failure(Truncated)
            else Success(Container(header, data[headerEnd + 40..dataEnd], data[headerEnd..headerEnd + 32]))
  }

  lemma MagicChecked(c: Codecs, data: Bytes)
    ensures FromBytes(c, data) == Failure(InvalidFormat) <==> |data| < 4 || data[..4] != MAGIC
  {
  }

  /** A parsed container's signature is the 32 bytes after the header, whatever the
      data: it is not recomputed. */
  lemma SignatureCopied(c: Codecs, data: Bytes)
    requires FromBytes(c, data).Success?
    ensures 8 + FromLe(data[4..8]) + 32 <= |data|
    ensures FromBytes(c, data).value.waveSignature == data[8 + FromLe(data[4..8])..8 + FromLe(data[4..8]) + 32]
  {
  }

  /** Reading back what `ToBytes` wrote, followed by anything, gives the same
      container, signature included, whether or not it matches the data. */
  lemma FrameRoundTrip(c: Codecs, m: Container, rest: Bytes)
    requires RoundTrips(c.headers)
    requires |c.headers.encode(m.header)| < TWO_32 && |m.data| < TWO_64
    ensures FromBytes(c, ToBytes(c, m) + rest) == Success(m)
  {
    var h := c.headers.encode(m.header);
    Pow256Widths();
    FromLeToLe(|h|, 4);
    FromLeToLe(|m.data|, 8);
    FrameSlices(MAGIC, ToLe(|h|, 4), h, m.waveSignature, ToLe(|m.data|, 8), m.data, rest);
    assert c.headers.decode(h) == Some(m.header);
  }

  /** Where each field of a frame sits: magic, header length, header, signature,
      data length, data, then whatever follows. */
  lemma FrameSlices(magic: Bytes, hl: Bytes, h: Bytes, sig: Bytes, dl: Bytes, d: Bytes, rest: Bytes)
    requires |magic| == 4 && |hl| == 4 && |sig| == 32 && |dl| == 8
    ensures var f := magic + hl + h + sig + dl + d + rest;
      var e := 8 + |h|;
      && |f| == e + 40 + |d| + |rest|
      && f[..4] == magic && f[4..8] == hl && f[8..e] == h && f[e..e + 32] == sig
      && f[e + 32..e + 40] == dl && f[e + 40..e + 40 + |d|] == d
  {
    var f := magic + hl + h + sig + dl + d + rest;
    var e := 8 + |h|;
    assert f[..4] == magic;
    assert f[4..8] == hl;
    assert f[8..e] == h;
    assert f[e..e + 32] == sig;
    assert f[e + 32..e + 40] == dl;
    assert f[e + 40..e + 40 + |d|] == d;
  }

  // -------------------------------------------- `from_bytes` as written

  /** `M8Container::from_bytes` as written: after the magic check nothing is
      bounds-checked, so a short or lying buffer panics. */
  function FromBytesAsWritten(c: Codecs, data: Bytes): Outcome<Container, Error>
  {
    if |data| < 4 || data[..4] != MAGIC then Returns(Failure(InvalidFormat))
    else if |data| < 8 then Panics
    else
      var headerEnd := 8 + FromLe(data[4..8]);
      if headerEnd > |data| then Panics
      else
        match c.headers.decode(data[8..headerEnd])
        case None => Returns(Failure(BadHeader))
        case Some(header) =>
          if headerEnd + 40 > |data| then Panics
          else
            var dataEnd := headerEnd + 40 + FromLe(data[headerEnd + 32..headerEnd + 40]);
            if dataEnd > |data| then Panics
            else Returns(Success(Container(header, data[headerEnd + 40..dataEnd], data[headerEnd..headerEnd + 32])))
  }

  lemma FromBytesAgrees(c: Codecs, data: Bytes)
    ensures FromBytesAsWritten(c, data).Panics? <==> FromBytes(c, data) == Failure(Truncated)
    ensures FromBytesAsWritten(c, data).Returns? ==> FromBytesAsWritten(c, data).result == FromBytes(c, data)
  {
  }

  /** "M8C1" alone passes the magic check and then panics. */
  lemma BareMagicPanics(c: Codecs)
    ensures FromBytesAsWritten(c, MAGIC).Panics?
    ensures FromBytes(c, MAGIC) == Failure(Truncated)
  {
    assert MAGIC[..4] == MAGIC;
  }

  // ------------------------------------------------------------- contents

  /** "M8 Container: <type> with <n> bytes of data". */
  function Diagnostic(t: ContentType, n: nat): (r: Bytes)
    ensures |r| > 0
  {
    var digits := NatToString(n);
    assert IsAscii(digits);
    AsciiBytes("M8 Container: ") + AsciiBytes(TypeName(t)) + AsciiBytes(" with ")
      + AsciiBytes(digits) + AsciiBytes(" bytes of data")
  }

  /** `M8Container::extract_content`: a Marqant payload is parsed and decoded, a
      Language payload is read as text, any other type is described. */
  function ExtractContent(c: Codecs, m: Container): (r: Result<Bytes, Error>)
    ensures m.header.contentType == Language ==> r == Success(Utf8.Lossy(m.data))
    ensures m.header.contentType !in {Marqant, Language} ==> r == Success(Diagnostic(m.header.contentType, |m.data|))
    ensures m.header.contentType == Marqant && Markqant.FromBytes(c.marqant, m.data).Failure? ==>
      r == Failure(Document(Markqant.FromBytes(c.marqant, m.data).error))
  {
    match m.header.contentType
    case Marqant =>
      (match Markqant.FromBytes(c.marqant, m.data)
       case Failure(e) => Failure(Document(e))
       case Success(doc) =>
         match Markqant.ToMarkdown(c.marqant, doc)
         case Failure(e) => Failure(Document(e))
         case Success(text) => Success(text))
    case Language => Success(Utf8.Lossy(m.data))
    case _ => Success(Diagnostic(m.header.contentType, |m.data|))
  }

  /** A text container, written out and read back, yields its text. */
  lemma TextContainerRoundTrip(c: Codecs, engine: Engine, text: Bytes, importance: Byte, now: nat)
    requires Utf8.Valid(text) && RoundTrips(c.headers)
    requires FromText(c, engine, text, importance, now).Success?
    requires |c.headers.encode(FromText(c, engine, text, importance, now).value.header)| < TWO_32
    requires |text| < TWO_64
    ensures FromBytes(c, ToBytes(c, FromText(c, engine, text, importance, now).value)).Success?
    ensures FromBytes(c, ToBytes(c, FromText(c, engine, text, importance, now).value)).value.waveSignature == c.sha256(text)
    ensures ExtractContent(c, FromBytes(c, ToBytes(c, FromText(c, engine, text, importance, now).value)).value) == Success(text)
  {
    var m := FromText(c, engine, text, importance, now).value;
    FrameRoundTrip(c, m, []);
    assert ToBytes(c, m) + [] == ToBytes(c, m);
    Utf8.LossyOfValid(text);
  }

  /** A container made from a document yields the document's text, provided the
      libraries round-trip and the document's sections are under 4 GiB. */
  lemma MarqantContainerContent(c: Codecs, engine: Engine, doc: Markqant.Marqant, now: nat, ratio: string)
    requires Lossless(c.marqant.zlib) && RoundTrips(c.marqant.headers) && RoundTrips(c.marqant.index)
    requires |c.marqant.headers.encode(doc.header)| < TWO_32 && |c.marqant.index.encode(doc.semanticMap)| < TWO_32
    requires FromMarqant(c, engine, doc, now, ratio).Success?
    ensures Markqant.ToMarkdown(c.marqant, doc).Success?
    ensures ExtractContent(c, FromMarqant(c, engine, doc, now, ratio).value) == Success(Markqant.ToMarkdown(c.marqant, doc).value)
  {
    Markqant.FrameRoundTrip(c.marqant, doc);
  }
}

=== FILE: markqant.dfy ===
/** Marqant (.mq) containers: markdown compressed with zlib, a SHA-256 signature of
    the uncompressed text, the semantic index, and the byte layout

      "MQ03" | header length (u32 LE) | header | index length (u32 LE) | index | payload

    where header and index are bincode-serialized. */
module Markqant {
  import opened Binary
  import opened Wrappers
  import opened Foreign
  import opened Utf8
  import opened SemanticIndex

  /** "MQ03". */
  const MAGIC: Bytes := [0x4D, 0x51, 0x30, 0x33]

  const VERSION: Byte := 3
  const COMPRESSION_LEVEL: Byte := 9

  datatype Header = Header(
    version: Byte,
    compressionLevel: Byte,
    originalSize: U64,
    compressedSize: U64,
    waveSignature: Digest,
    metadata: map<string, string>)

  datatype Marqant = Marqant(header: Header, waveData: Bytes, semanticMap: SemanticMap)

  /** The libraries a Marqant is built and read with. */
  datatype Codecs = Codecs(
    sha256: Hash,
    zlib: Compressor,
    headers: Serializer<Header>,
    index: Serializer<SemanticMap>)

  datatype Error =
    | InvalidFormat     // "Invalid Marqant file format": short buffer or wrong magic
    | Inflate           // zlib could not decompress the payload
    | Truncated         // a length field or a section runs past the end of the buffer
    | BadHeader         // bincode rejected the header bytes
    | BadIndex          // bincode rejected the index bytes

  const METADATA: map<string, string> := map["format" := "marqant", "encoding" := "quantum-wave"]

  // ------------------------------------------------------ markdown <-> wave

  /** The wave pattern of a document: for now its UTF-8 bytes; the index is not used. */
  function MarkdownToWave(markdown: Bytes, index: SemanticMap): (wave: Bytes)
    ensures |wave| == |markdown|
  {
    markdown
  }

  /** Back from a wave pattern: the bytes read as UTF-8, ill-formed parts replaced. */
  function WaveToMarkdown(wave: Bytes, index: SemanticMap): (markdown: Bytes)
    ensures Valid(wave) ==> markdown == wave
  {
    LossyIsIdentityIff(wave);
    Lossy(wave)
  }

  /** The wave conversion is undone exactly when the text is well-formed UTF-8, which
      every Rust `&str` is. */
  lemma WaveRoundTrip(markdown: Bytes, index: SemanticMap)
    ensures WaveToMarkdown(MarkdownToWave(markdown, index), index) == markdown <==> Valid(markdown)
  {
    LossyIsIdentityIff(markdown);
  }

  // ---------------------------------------------------------- construction

  /** `Marqant::from_markdown`. Writing into an in-memory buffer cannot fail, so its
      `Result` is always `Ok`. */
  function FromMarkdown(c: Codecs, markdown: Bytes): (m: Marqant)
    requires Valid(markdown)
    ensures m.header.version == VERSION && m.header.compressionLevel == COMPRESSION_LEVEL
    ensures m.header.originalSize == |markdown| % TWO_64
    ensures m.header.compressedSize == |m.waveData| % TWO_64
    ensures m.header.waveSignature == c.sha256(markdown)
    ensures m.header.metadata == METADATA
    ensures m.semanticMap == ExtractSemanticTokens(markdown)
  {
    var index := ExtractSemanticTokens(markdown);
    var wave := MarkdownToWave(markdown, index);
    var compressed := c.zlib.compress(wave);
    var header := Header(VERSION, COMPRESSION_LEVEL, |markdown| % TWO_64, |compressed| % TWO_64,
                         c.sha256(wave), METADATA);
    Marqant(header, compressed, index)
  }

  /** `Marqant::to_markdown`: inflate the payload, then read it back as text. */
  function ToMarkdown(c: Codecs, m: Marqant): (r: Result<Bytes, Error>)
    ensures r.Failure? <==> c.zlib.decompress(m.waveData).None?
    ensures r.Success? ==> Valid(c.zlib.decompress(m.waveData).value) ==> r.value == c.zlib.decompress(m.waveData).value
  {
    match c.zlib.decompress(m.waveData)
    case None => Failure(Inflate)
    case Some(wave) => Success(WaveToMarkdown(wave, m.semanticMap))
  }

  /** With a lossless zlib, a document comes back unchanged and its signature is the
      hash of what comes back. */
  lemma MarkdownRoundTrip(c: Codecs, markdown: Bytes)
    requires Lossless(c.zlib) && Valid(markdown)
    ensures ToMarkdown(c, FromMarkdown(c, markdown)) == Success(markdown)
    ensures FromMarkdown(c, markdown).header.waveSignature == c.sha256(ToMarkdown(c, FromMarkdown(c, markdown)).value)
  {
    var m := FromMarkdown(c, markdown);
    assert c.zlib.decompress(c.zlib.compress(markdown)) == Some(markdown);
  }

  // -------------------------------------------------------------- framing

  /** `Marqant::to_bytes`. Each length is written as `len as u32`: only its low four
      bytes survive. */
  function ToBytes(c: Codecs, m: Marqant): (data: Bytes)
    ensures |data| == 12 + |c.headers.encode(m.header)| + |c.index.encode(m.semanticMap)| + |m.waveData|
    ensures data[..4] == MAGIC
  {
    var h := c.headers.encode(m.header);
    var i := c.index.encode(m.semanticMap);
    MAGIC + ToLe(|h|, 4) + h + ToLe(|i|, 4) + i + m.waveData
  }

  /** `Marqant::from_bytes` with every read bounds-checked: where the Rust code would
      index or slice past the end, the buffer is reported `Truncated`. */
  function FromBytes(c: Codecs, data: Bytes): Result<Marqant, Error>
  {
    if |data| < 4 || data[..4] != MAGIC then Failure(InvalidFormat)
    else if |data| < 8 then Failure(Truncated)
    else
      var headerEnd := 8 + FromLe(data[4..8]);
      if headerEnd > |data| then Failure(Truncated)
      else
        match c.headers.decode(data[8..headerEnd])
        case None => Failure(BadHeader)
        case Some(header) =>
          if headerEnd + 4 > |data| then Failure(Truncated)
          else
            var indexEnd := headerEnd + 4 + FromLe(data[headerEnd..headerEnd + 4]);
            if indexEnd > |data| then Failure(Truncated)
            else
              match c.index.decode(data[headerEnd + 4..indexEnd])
              case None => Failure(BadIndex)
              case Some(index) => Success(Marqant(header, data[indexEnd..], index))
  }

  /** The wrong magic, and only it, gives `InvalidFormat`. */
  lemma MagicChecked(c: Codecs, data: Bytes)
    ensures FromBytes(c, data) == Failure(InvalidFormat) <==> |data| < 4 || data[..4] != MAGIC
  {
  }

  /** No buffer shorter than the twelve bytes of magic and two length fields parses. */
  lemma ShortBuffersFail(c: Codecs, data: Bytes)
    requires |data| < 12
    ensures FromBytes(c, data).Failure?
  {
  }

  /** Reading back what `ToBytes` wrote gives the same container, provided bincode
      round-trips and both serialized sections are under 4 GiB. */
  lemma FrameRoundTrip(c: Codecs, m: Marqant)
    requires RoundTrips(c.headers) && RoundTrips(c.index)
    requires |c.headers.encode(m.header)| < TWO_32 && |c.index.encode(m.semanticMap)| < TWO_32
    ensures FromBytes(c, ToBytes(c, m)) == Success(m)
  {
    var h := c.headers.encode(m.header);
    var i := c.index.encode(m.semanticMap);
    var data := ToBytes(c, m);
    Pow256Widths();
    FromLeToLe(|h|, 4);
    FromLeToLe(|i|, 4);
    var headerEnd := 8 + |h|;
    var indexEnd := headerEnd + 4 + |i|;
    assert data[4..8] == ToLe(|h|, 4);
    assert data[8..headerEnd] == h;
    assert data[headerEnd..headerEnd + 4] == ToLe(|i|, 4);
    assert data[headerEnd + 4..indexEnd] == i;
    assert data[indexEnd..] == m.waveData;
    assert c.headers.decode(h) == Some(m.header);
    assert c.index.decode(i) == Some(m.semanticMap);
  }

  /** Writing a document out and reading it back in recovers the text. */
  lemma FileRoundTrip(c: Codecs, markdown: Bytes)
    requires Lossless(c.zlib) && RoundTrips(c.headers) && RoundTrips(c.index) && Valid(markdown)
    requires |c.headers.encode(FromMarkdown(c, markdown).header)| < TWO_32
    requires |c.index.encode(FromMarkdown(c, markdown).semanticMap)| < TWO_32
    ensures FromBytes(c, ToBytes(c, FromMarkdown(c, markdown))).Success?
    ensures ToMarkdown(c, FromBytes(c, ToBytes(c, FromMarkdown(c, markdown))).value) == Success(markdown)
  {
    FrameRoundTrip(c, FromMarkdown(c, markdown));
    MarkdownRoundTrip(c, markdown);
  }

  // -------------------------------------------- `from_bytes` as written

  /** `Marqant::from_bytes` as written: after the magic check it reads the length
      fields and slices the sections without checking they lie inside the buffer, so
      a short or lying buffer panics instead of returning an error. */
  function FromBytesAsWritten(c: Codecs, data: Bytes): Outcome<Marqant, Error>
  {
    if |data| < 4 || data[..4] != MAGIC then Returns(Failure(InvalidFormat))
    else if |data| < 8 then Panics
    else
      var headerEnd := 8 + FromLe(data[4..8]);
      if headerEnd > |data| then Panics
      else
        match c.headers.decode(data[8..headerEnd])
        case None => Returns(Failure(BadHeader))
        case Some(header) =>
          if headerEnd + 4 > |data| then Panics
          else
            var indexEnd := headerEnd + 4 + FromLe(data[headerEnd..headerEnd + 4]);
            if indexEnd > |data| then Panics
            else
              match c.index.decode(data[headerEnd + 4..indexEnd])
              case None => Returns(Failure(BadIndex))
              case Some(index) => Returns(Success(Marqant(header, data[indexEnd..], index)))
  }

  /** The checked reader differs from `Marqant::from_bytes` exactly where that panics,
      and reports those buffers as `Truncated`. */
  lemma FromBytesAgrees(c: Codecs, data: Bytes)
    ensures FromBytesAsWritten(c, data).Panics? <==> FromBytes(c, data) == Failure(Truncated)
    ensures FromBytesAsWritten(c, data).Returns? ==> FromBytesAsWritten(c, data).result == FromBytes(c, data)
  {
  }

  /** The four bytes "MQ03" alone pass the magic check and then panic reading the
      header length. */
  lemma BareMagicPanics(c: Codecs)
    ensures FromBytesAsWritten(c, MAGIC).Panics?
    ensures FromBytes(c, MAGIC) == Failure(Truncated)
  {
    assert MAGIC[..4] == MAGIC;
  }
}

=== FILE: nexus.dfy ===
/** The M8 nexus: containers kept by their wave signature, a content-addressed
    registry. Storing a container whose signature is already present replaces it. */
module Nexus {
  import opened Binary
  import opened Wrappers
  import opened M8
  import Utf8

  datatype Nexus = Nexus(containers: map<Digest, Container>)

  const EMPTY: Nexus := Nexus(map[])

  /** `M8Nexus::retrieve`. */
  function Retrieve(n: Nexus, signature: Digest): (r: Option<Container>)
    ensures r.Some? <==> signature in n.containers
    ensures r.Some? ==> r.value == n.containers[signature]
  {
    if signature in n.containers then Some(n.containers[signature]) else None
  }

  /** `M8Nexus::store`: file the container under its signature and return the signature. */
  function Store(n: Nexus, c: Container): (r: (Nexus, Digest))
    ensures r.1 == c.waveSignature
    ensures Retrieve(r.0, r.1) == Some(c)
    ensures forall s :: s != r.1 ==> Retrieve(r.0, s) == Retrieve(n, s)
    ensures |r.0.containers| == |n.containers| + (if c.waveSignature in n.containers then 0 else 1)
  {
    (Nexus(n.containers[c.waveSignature := c]), c.waveSignature)
  }

  /** Storing a second container with the same signature replaces the first and
      leaves the size alone. */
  lemma StoreOverwrites(n: Nexus, c: Container, d: Container)
    requires c.waveSignature == d.waveSignature
    ensures |Store(Store(n, c).0, d).0.containers| == |Store(n, c).0.containers|
    ensures Retrieve(Store(Store(n, c).0, d).0, c.waveSignature) == Some(d)
  {
  }

  /** Uploading the same text twice, at different times and under different engine
      ids, leaves one container: the signature depends on the text alone. */
  lemma SameTextStoredOnce(c: Codecs, e1: Engine, e2: Engine, text: Bytes, importance: Byte,
                           now1: nat, now2: nat, n: Nexus)
    requires Utf8.Valid(text)
    requires FromText(c, e1, text, importance, now1).Success?
    requires FromText(c, e2, text, importance, now2).Success?
    ensures var n1 := Store(n, FromText(c, e1, text, importance, now1).value).0;
            var n2 := Store(n1, FromText(c, e2, text, importance, now2).value).0;
            |n2.containers| == |n1.containers|
            && Retrieve(n2, c.sha256(text)) == Some(FromText(c, e2, text, importance, now2).value)
  {
  }

  // ----------------------------------------------------------------- list

  datatype Entry = Entry(signature: Digest, contentType: ContentType, timestamp: nat)

  function EntryOf(n: Nexus, signature: Digest): Entry
    requires signature in n.containers
  {
    var c := n.containers[signature];
    Entry(signature, c.header.contentType, c.header.timestamp)
  }

  /** `M8Nexus::list`: one entry per stored signature, in no particular order. */
  method List(n: Nexus) returns (entries: seq<Entry>)
    ensures |entries| == |n.containers|
    ensures forall k :: 0 <= k < |entries| ==>
      entries[k].signature in n.containers && entries[k] == EntryOf(n, entries[k].signature)
    ensures forall s :: s in n.containers ==> exists k :: 0 <= k < |entries| && entries[k].signature == s
    ensures forall a, b :: 0 <= a < b < |entries| ==> entries[a].signature != entries[b].signature
  {
    var rest := n.containers.Keys;
    entries := [];
    while rest != {}
      invariant Listed(n, entries, rest)
      decreases |rest|
    {
      var s :| s in rest;
      ListStep(n, entries, rest, s);
      entries := entries + [EntryOf(n, s)];
      rest := rest - {s};
    }
  }

  /** `entries` lists the stored signatures outside `rest`, each once, with its entry. */
  ghost predicate Listed(n: Nexus, entries: seq<Entry>, rest: set<Digest>)
  {
    && rest <= n.containers.Keys
    && |entries| + |rest| == |n.containers|
    && (forall k :: 0 <= k < |entries| ==>
          entries[k].signature in n.containers && entries[k].signature !in rest
          && entries[k] == EntryOf(n, entries[k].signature))
    && (forall s :: s in n.containers && s !in rest ==>
          exists k :: 0 <= k < |entries| && entries[k].signature == s)
    && (forall a, b :: 0 <= a < b < |entries| ==> entries[a].signature != entries[b].signature)
  }

  /** Moving one signature from `rest` to the end of the listing keeps it exact. */
  lemma ListStep(n: Nexus, entries: seq<Entry>, rest: set<Digest>, s: Digest)
    requires Listed(n, entries, rest) && s in rest
    ensures Listed(n, entries + [EntryOf(n, s)], rest - {s})
  {
    var after := entries + [EntryOf(n, s)];
    forall t | t in n.containers && t !in rest - {s}
      ensures exists k :: 0 <= k < |after| && after[k].signature == t
    {
      if t == s {
        assert after[|entries|].signature == t;
      } else {
        var k :| 0 <= k < |entries| && entries[k].signature == t;
        assert after[k].signature == t;
      }
    }
  }

  // ---------------------------------------------------------------- stats

  /** The stored signatures whose container has type `t`. */
  function OfType(n: Nexus, t: ContentType): set<Digest>
  {
    set s | s in n.containers.Keys && n.containers[s].header.contentType == t
  }

  function Count(n: Nexus, t: ContentType): nat
  {
    |OfType(n, t)|
  }

  /** Type name to count, for the types present among `ts`. */
  function StatsOver(n: Nexus, ts: seq<ContentType>): map<string, nat>
  {
    if |ts| == 0 then map[]
    else
      var rest := StatsOver(n, ts[1..]);
      if Count(n, ts[0]) > 0 then rest[TypeName(ts[0]) := Count(n, ts[0])] else rest
  }

  /** `M8Nexus::stats`: for each content type present, its `Debug` name and the number
      of containers of that type. */
  function Stats(n: Nexus): map<string, nat>
  {
    StatsOver(n, ALL_TYPES)
  }

  /** A listed type's name is a key exactly when the type has containers, and then
      it maps to their number. */
  lemma {:induction false} StatsOverAt(n: Nexus, ts: seq<ContentType>, t: ContentType)
    requires t in ts
    ensures TypeName(t) in StatsOver(n, ts) <==> Count(n, t) > 0
    ensures TypeName(t) in StatsOver(n, ts) ==> StatsOver(n, ts)[TypeName(t)] == Count(n, t)
  {
    if t in ts[1..] {
      StatsOverAt(n, ts[1..], t);
    } else if TypeName(t) in StatsOver(n, ts[1..]) {
      var u := StatsOverKey(n, ts[1..], TypeName(t));
      TypeNameInjective(u, t);
      assert false;
    }
    if t != ts[0] && TypeName(t) == TypeName(ts[0]) {
      TypeNameInjective(t, ts[0]);
      assert false;
    }
  }

  /** Every key is the name of a listed type. */
  lemma {:induction false} StatsOverKey(n: Nexus, ts: seq<ContentType>, name: string) returns (t: ContentType)
    requires name in StatsOver(n, ts)
    ensures t in ts && name == TypeName(t)
  {
    if name == TypeName(ts[0]) && Count(n, ts[0]) > 0 {
      t := ts[0];
    } else {
      t := StatsOverKey(n, ts[1..], name);
      assert t in ts;
    }
  }

  lemma StatsOverExact(n: Nexus, ts: seq<ContentType>)
    ensures forall t :: t in ts ==> (TypeName(t) in StatsOver(n, ts) <==> Count(n, t) > 0)
    ensures forall t :: t in ts && TypeName(t) in StatsOver(n, ts) ==> StatsOver(n, ts)[TypeName(t)] == Count(n, t)
    ensures forall name :: name in StatsOver(n, ts) ==> exists t :: t in ts && name == TypeName(t)
  {
    forall t | t in ts
      ensures TypeName(t) in StatsOver(n, ts) <==> Count(n, t) > 0
      ensures TypeName(t) in StatsOver(n, ts) ==> StatsOver(n, ts)[TypeName(t)] == Count(n, t)
    {
      StatsOverAt(n, ts, t);
    }
    forall name | name in StatsOver(n, ts)
      ensures exists t :: t in ts && name == TypeName(t)
    {
      var t := StatsOverKey(n, ts, name);
    }
  }

  /** A type's name is a key exactly when some container has that type, and then it
      maps to their number; no other key occurs. */
  lemma StatsExact(n: Nexus)
    ensures forall t :: TypeName(t) in Stats(n) <==> Count(n, t) > 0
    ensures forall t :: TypeName(t) in Stats(n) ==> Stats(n)[TypeName(t)] == Count(n, t)
    ensures forall name :: name in Stats(n) ==> exists t :: name == TypeName(t)
  {
    StatsOverExact(n, ALL_TYPES);
    forall t
      ensures t in ALL_TYPES
    {
      AllTypesListed(t);
    }
  }

  lemma EmptyStats()
    ensures Stats(EMPTY) == map[]
  {
    StatsExact(EMPTY);
  }

  function SumCounts(n: Nexus, ts: seq<ContentType>): nat
  {
    if |ts| == 0 then 0 else Count(n, ts[0]) + SumCounts(n, ts[1..])
  }

  /** The stored signatures whose container's type is among `ts`. */
  function OfTypes(n: Nexus, ts: seq<ContentType>): set<Digest>
  {
    set s | s in n.containers.Keys && n.containers[s].header.contentType in ts
  }

  lemma {:induction false} SumCountsPartition(n: Nexus, ts: seq<ContentType>)
    requires forall a, b :: 0 <= a < b < |ts| ==> ts[a] != ts[b]
    ensures SumCounts(n, ts) == |OfTypes(n, ts)|
  {
    if |ts| > 0 {
      SumCountsPartition(n, ts[1..]);
      assert ts[0] !in ts[1..];
      OfTypesSplit(n, ts);
      DisjointUnionSize(OfType(n, ts[0]), OfTypes(n, ts[1..]));
    } else {
      assert OfTypes(n, ts) == {};
    }
  }

  lemma OfTypesSplit(n: Nexus, ts: seq<ContentType>)
    requires |ts| > 0 && ts[0] !in ts[1..]
    ensures OfTypes(n, ts) == OfType(n, ts[0]) + OfTypes(n, ts[1..])
    ensures OfType(n, ts[0]) * OfTypes(n, ts[1..]) == {}
  {
    forall s | s in OfTypes(n, ts)
      ensures s in OfType(n, ts[0]) || s in OfTypes(n, ts[1..])
    {
      var t := n.containers[s].header.contentType;
      assert t in ts;
      if t != ts[0] {
        assert t in ts[1..];
      }
    }
  }

  lemma DisjointUnionSize<T>(a: set<T>, b: set<T>)
    requires a * b == {}
    ensures |a + b| == |a| + |b|
  {
    assert |a * b| == 0;
  }

  /** The per-type counts add up to the number of stored containers. */
  lemma CountsSumToSize(n: Nexus)
    ensures SumCounts(n, ALL_TYPES) == |n.containers|
  {
    SumCountsPartition(n, ALL_TYPES);
    forall s | s in n.containers.Keys
      ensures s in OfTypes(n, ALL_TYPES)
    {
      AllTypesListed(n.containers[s].header.contentType);
    }
    assert OfTypes(n, ALL_TYPES) == n.containers.Keys;
  }
}

=== FILE: quantum_names.dfy ===
/** Quantum names for contributors: a hash of the id's bytes picks an adjective,
    a noun and a three-digit number. */
module QuantumNames {
  import opened Binary
  import opened Text

  const ADJECTIVES: seq<string> :=
    ["Quantum", "Entangled", "Superposed", "Coherent", "Spinning", "Probable", "Uncertain"]
  const NOUNS: seq<string> := ["Qubit", "Wave", "Photon", "Neutrino", "Boson", "Fermion", "Hadron"]

  /** `fold(0u32, |acc, b| acc.wrapping_add(b as u32))` from `acc`. */
  function WrappingFold(acc: U32, s: Bytes): U32
    decreases |s|
  {
    if |s| == 0 then acc else WrappingFold((acc + s[0]) % TWO_32, s[1..])
  }

  /** The name hash of an id, over the id's UTF-8 bytes. */
  function NameHash(id: Bytes): U32
  {
    WrappingFold(0, id)
  }

  /** The plain sum of the bytes. */
  function ByteSum(s: Bytes): nat
    decreases |s|
  {
    if |s| == 0 then 0 else s[0] + ByteSum(s[1..])
  }

  lemma ModAddLeft(a: nat, b: nat)
    ensures (a % TWO_32 + b) % TWO_32 == (a + b) % TWO_32
  {
    var q := a / TWO_32;
    assert a == q * TWO_32 + a % TWO_32;
    assert a + b == (a % TWO_32 + b) + q * TWO_32;
  }

  /** Folding with wrapping addition is summing and reducing modulo 2^32 once. */
  lemma {:induction false} WrappingFoldIsSum(acc: U32, s: Bytes)
    ensures WrappingFold(acc, s) == (acc + ByteSum(s)) % TWO_32
    decreases |s|
  {
    if |s| > 0 {
      WrappingFoldIsSum((acc + s[0]) % TWO_32, s[1..]);
      ModAddLeft(acc + s[0], ByteSum(s[1..]));
    }
  }

  /** The byte sum depends only on which bytes occur, not on their order. */
  lemma {:induction false} ByteSumPermutation(a: Bytes, b: Bytes)
    requires multiset(a) == multiset(b)
    ensures ByteSum(a) == ByteSum(b)
    decreases |a|
  {
    if |a| == 0 {
      assert |b| == |multiset(b)| == 0;
    } else {
      var j := PositionOf(b, a[0]);
      RemoveMatching(a, b, j);
      ByteSumPermutation(a[1..], b[..j] + b[j + 1..]);
      ByteSumWithout(b, j);
    }
  }

  /** Taking out the byte at `j` takes it out of the sum. */
  lemma {:induction false} ByteSumWithout(b: Bytes, j: nat)
    requires j < |b|
    ensures ByteSum(b) == b[j] + ByteSum(b[..j] + b[j + 1..])
    decreases j
  {
    if j == 0 {
      assert b[..0] + b[1..] == b[1..];
    } else {
      var t := b[1..];
      ByteSumWithout(t, j - 1);
      var w := b[..j] + b[j + 1..];
      assert w[0] == b[0];
      assert w[1..] == t[..j - 1] + t[j..];
    }
  }

  lemma PositionOf<T>(b: seq<T>, x: T) returns (j: nat)
    requires x in multiset(b)
    ensures j < |b| && b[j] == x
  {
    j :| 0 <= j < |b| && b[j] == x;
  }

  /** Taking the first element out of `a` and a matching one out of `b` keeps the
      multisets equal. */
  lemma RemoveMatching<T>(a: seq<T>, b: seq<T>, j: nat)
    requires |a| > 0 && j < |b| && b[j] == a[0] && multiset(a) == multiset(b)
    ensures multiset(a[1..]) == multiset(b[..j] + b[j + 1..])
  {
    MultisetWithout(b, j);
    assert a == [a[0]] + a[1..];
    assert multiset(a) == multiset{a[0]} + multiset(a[1..]);
  }

  lemma MultisetWithout<T>(b: seq<T>, j: nat)
    requires j < |b|
    ensures multiset(b[..j] + b[j + 1..]) == multiset(b) - multiset{b[j]}
  {
    assert b == b[..j] + [b[j]] + b[j + 1..];
  }

  /** `generate_quantum_name`: an adjective chosen by the hash, a noun chosen by the
      hash shifted right eight bits, and the hash's last three decimal digits. */
  function QuantumName(id: Bytes): string
  {
    var hash := NameHash(id);
    ADJECTIVES[hash % 7] + NOUNS[(hash / 256) % 7] + NatToString(hash % 1000)
  }

  /** The name in terms of the byte sum modulo 2^32. */
  lemma QuantumNameFromSum(id: Bytes)
    ensures NameHash(id) == ByteSum(id) % TWO_32
    ensures var h := ByteSum(id) % TWO_32;
            QuantumName(id) == ADJECTIVES[h % 7] + NOUNS[(h / 256) % 7] + NatToString(h % 1000)
  {
    WrappingFoldIsSum(0, id);
  }

  /** Ids made of the same bytes in another order get the same name. */
  lemma NameIgnoresByteOrder(a: Bytes, b: Bytes)
    requires multiset(a) == multiset(b)
    ensures QuantumName(a) == QuantumName(b)
  {
    QuantumNameFromSum(a);
    QuantumNameFromSum(b);
    ByteSumPermutation(a, b);
  }

  /** A word followed by digits: the digits are the longest all-digit tail, so they
      can be read back off the joined text. */
  lemma DigitTailDetermined(p1: string, d1: string, p2: string, d2: string)
    requires |p1| > 0 && !IsDigit(p1[|p1| - 1])
    requires |p2| > 0 && !IsDigit(p2[|p2| - 1])
    requires forall k :: 0 <= k < |d1| ==> IsDigit(d1[k])
    requires forall k :: 0 <= k < |d2| ==> IsDigit(d2[k])
    requires p1 + d1 == p2 + d2
    ensures d1 == d2
  {
    if |p2| < |p1| {
      LastOfLongerPrefix(p1, d1, p2, d2);
    } else if |p1| < |p2| {
      LastOfLongerPrefix(p2, d2, p1, d1);
    } else {
      var s := p1 + d1;
      assert d1 == s[|p1|..];
    }
  }

  lemma LastOfLongerPrefix<C>(p1: seq<C>, d1: seq<C>, p2: seq<C>, d2: seq<C>)
    requires p1 + d1 == p2 + d2
    requires |p2| < |p1|
    ensures p1[|p1| - 1] == d2[|p1| - 1 - |p2|]
  {
    var s := p1 + d1;
    assert s[|p1| - 1] == p1[|p1| - 1];
  }

  lemma NounsEndInLetters(j: nat)
    requires j < 7
    ensures |NOUNS[j]| > 0 && !IsDigit(NOUNS[j][|NOUNS[j]| - 1])
  {
  }

  /** Two contributors with the same name have hashes with the same last three
      decimal digits. */
  lemma NameDeterminesNumber(a: Bytes, b: Bytes)
    requires QuantumName(a) == QuantumName(b)
    ensures NameHash(a) % 1000 == NameHash(b) % 1000
  {
    var ha, hb := NameHash(a), NameHash(b);
    var pa := ADJECTIVES[ha % 7] + NOUNS[(ha / 256) % 7];
    var pb := ADJECTIVES[hb % 7] + NOUNS[(hb / 256) % 7];
    NounsEndInLetters((ha / 256) % 7);
    NounsEndInLetters((hb / 256) % 7);
    assert pa[|pa| - 1] == NOUNS[(ha / 256) % 7][|NOUNS[(ha / 256) % 7]| - 1];
    assert pb[|pb| - 1] == NOUNS[(hb / 256) % 7][|NOUNS[(hb / 256) % 7]| - 1];
    DigitTailDetermined(pa, NatToString(ha % 1000), pb, NatToString(hb % 1000));
    NatToStringInjective(ha % 1000, hb % 1000);
  }
}

=== FILE: semantic_index.dfy ===
/** The semantic index a Marqant document carries: byte offsets of header lines,
    fenced-code markers and inline links in the original markdown. The regular
    expressions of `extract_semantic_tokens` are written out here as predicates over bytes. */
module SemanticIndex {
  import opened Binary
  import opened Wrappers

  const NL: Byte := 0x0A
  const CR: Byte := 0x0D
  const HASH: Byte := 0x23
  const BACKTICK: Byte := 0x60
  const LBRACKET: Byte := 0x5B
  const RBRACKET: Byte := 0x5D
  const LPAREN: Byte := 0x28
  const RPAREN: Byte := 0x29

  /** Category name to offsets (`HashMap<String, Vec<u32>>`). */
  type SemanticMap = map<string, seq<U32>>

  predicate Increasing(xs: seq<nat>)
  {
    forall a, b :: 0 <= a < b < |xs| ==> xs[a] < xs[b]
  }

  predicate AllBelow(xs: seq<nat>, n: nat)
  {
    forall k :: 0 <= k < |xs| ==> xs[k] < n
  }

  /** `x as u32` for each offset. */
  function Wrap32(xs: seq<nat>): (r: seq<U32>)
    ensures |r| == |xs|
    ensures AllBelow(xs, TWO_32) ==> r == xs
  {
    seq(|xs|, k requires 0 <= k < |xs| => xs[k] % TWO_32)
  }

  // ---------------------------------------------------------------- lines

  /** Index of the first '\n' at or after `i`, or `|s|` when there is none. */
  function NextNewline(s: Bytes, i: nat): (j: nat)
    requires i <= |s|
    ensures i <= j <= |s|
    ensures j < |s| ==> s[j] == NL
    decreases |s| - i
  {
    if i == |s| || s[i] == NL then i else NextNewline(s, i + 1)
  }

  /** No '\n' comes before the one `NextNewline` finds. */
  lemma {:induction false} NextNewlineSkips(s: Bytes, i: nat, k: nat)
    requires i <= |s| && i <= k < NextNewline(s, i)
    ensures s[k] != NL
    decreases |s| - i
  {
    if k > i {
      NextNewlineSkips(s, i + 1, k);
    }
  }

  /** Length of the line `str::lines` yields for the line starting at `i`: the bytes
      up to the next '\n', without it, and without one '\r' right before it. */
  function LineLength(s: Bytes, i: nat): nat
    requires i <= |s|
  {
    var j := NextNewline(s, i);
    if j < |s| && j > i && s[j - 1] == CR then j - 1 - i else j - i
  }

  /** `p` is where one of the lines of `s` begins. */
  predicate IsLineStart(s: Bytes, p: nat)
  {
    p < |s| && (p == 0 || s[p - 1] == NL)
  }

  /** Where the line after the one starting at `i` begins: just past its '\n', or
      the end of the text for the last line. */
  function NextLine(s: Bytes, i: nat): (r: nat)
    requires i < |s|
    ensures i < r <= |s|
    ensures r == |s| || s[r - 1] == NL
  {
    var j := NextNewline(s, i);
    if j < |s| then j + 1 else |s|
  }

  /** No line begins strictly between `i` and the next line. */
  lemma NoLineStartBefore(s: Bytes, i: nat, p: nat)
    requires i < p && p < |s| && p < NextLine(s, i)
    ensures !IsLineStart(s, p)
  {
    NextNewlineSkips(s, i, p - 1);
  }

  /** Starts of the lines from the one starting at `i` on that `keep` selects. */
  function LinesWhere(s: Bytes, i: nat, keep: (Bytes, nat) -> bool): seq<nat>
    requires i <= |s|
    decreases |s| - i
  {
    if i == |s| then []
    else if keep(s, i) then [i] + LinesWhere(s, NextLine(s, i), keep)
    else LinesWhere(s, NextLine(s, i), keep)
  }

  /** The `k`-th selected offset is a selected line start at or after `i`. */
  lemma {:induction false} LinesWhereSound(s: Bytes, i: nat, keep: (Bytes, nat) -> bool, k: nat)
    requires i <= |s| && (i == 0 || s[i - 1] == NL)
    requires k < |LinesWhere(s, i, keep)|
    ensures var p := LinesWhere(s, i, keep)[k]; i <= p && IsLineStart(s, p) && keep(s, p)
    decreases |s| - i
  {
    var h := if keep(s, i) then 1 else 0;
    if k >= h {
      LinesWhereSound(s, NextLine(s, i), keep, k - h);
    }
  }

  /** A selected line start at or after `i` is among the offsets. */
  lemma {:induction false} LinesWhereComplete(s: Bytes, i: nat, keep: (Bytes, nat) -> bool, p: nat)
    requires i <= |s| && (i == 0 || s[i - 1] == NL)
    requires i <= p && IsLineStart(s, p) && keep(s, p)
    ensures p in LinesWhere(s, i, keep)
    decreases |s| - i
  {
    if p > i {
      if p < NextLine(s, i) {
        NoLineStartBefore(s, i, p);
      } else {
        LinesWhereComplete(s, NextLine(s, i), keep, p);
      }
    }
  }

  /** The offsets come in increasing order. */
  lemma {:induction false} LinesWhereIncreasing(s: Bytes, i: nat, keep: (Bytes, nat) -> bool, a: nat, b: nat)
    requires i <= |s| && (i == 0 || s[i - 1] == NL)
    requires a < b < |LinesWhere(s, i, keep)|
    ensures LinesWhere(s, i, keep)[a] < LinesWhere(s, i, keep)[b]
    decreases |s| - i
  {
    var h := if keep(s, i) then 1 else 0;
    if a < h {
      LinesWhereSound(s, NextLine(s, i), keep, b - h);
    } else {
      LinesWhereIncreasing(s, NextLine(s, i), keep, a - h, b - h);
    }
  }

  /** The selected offsets are exactly the selected line starts, in increasing order. */
  lemma LinesWhereExact(s: Bytes, i: nat, keep: (Bytes, nat) -> bool)
    requires i <= |s| && (i == 0 || s[i - 1] == NL)
    ensures forall p :: p in LinesWhere(s, i, keep) ==> i <= p && IsLineStart(s, p) && keep(s, p)
    ensures forall p :: i <= p && IsLineStart(s, p) && keep(s, p) ==> p in LinesWhere(s, i, keep)
    ensures Increasing(LinesWhere(s, i, keep))
  {
    var r := LinesWhere(s, i, keep);
    forall p | p in r
      ensures i <= p && IsLineStart(s, p) && keep(s, p)
    {
      var k :| 0 <= k < |r| && r[k] == p;
      LinesWhereSound(s, i, keep, k);
    }
    forall p | i <= p && IsLineStart(s, p) && keep(s, p)
      ensures p in r
    {
      LinesWhereComplete(s, i, keep, p);
    }
    forall a, b | 0 <= a < b < |r|
      ensures r[a] < r[b]
    {
      LinesWhereIncreasing(s, i, keep, a, b);
    }
  }

  // --------------------------------------------------- the header pattern

  /** Number of consecutive '#' from `i` on. */
  function Hashes(line: Bytes, i: nat): (n: nat)
    requires i <= |line|
    ensures i + n <= |line|
    decreases |line| - i
  {
    if i < |line| && line[i] == HASH then 1 + Hashes(line, i + 1) else 0
  }

  /** The three-byte UTF-8 encodings of Unicode White_Space characters:
      U+1680, U+2000..U+200A, U+2028, U+2029, U+202F, U+205F, U+3000. */
  predicate ThreeByteSpace(a: Byte, b: Byte, c: Byte)
  {
    || (a == 0xE1 && b == 0x9A && c == 0x80)
    || (a == 0xE2 && b == 0x80 && (0x80 <= c <= 0x8A || c == 0xA8 || c == 0xA9 || c == 0xAF))
    || (a == 0xE2 && b == 0x81 && c == 0x9F)
    || (a == 0xE3 && b == 0x80 && c == 0x80)
  }

  /** Byte length of the `\s` character (Unicode White_Space) at `k`, or 0 when there is none. */
  function SpaceWidth(line: Bytes, k: nat): (w: nat)
    ensures w <= 3
    ensures w > 0 ==> k + w <= |line|
  {
    if k >= |line| then 0
    else if line[k] == 0x20 || 0x09 <= line[k] <= 0x0D then 1
    else if k + 1 < |line| && line[k] == 0xC2 && (line[k + 1] == 0x85 || line[k + 1] == 0xA0) then 2
    else if k + 2 < |line| && ThreeByteSpace(line[k], line[k + 1], line[k + 2]) then 3
    else 0
  }

  /** A line matches `^#{1,6}\s+(.+)$`: one to six '#', a whitespace character, and at
      least one more character after it (the `.+` may itself start with whitespace). */
  predicate IsHeaderLine(line: Bytes)
  {
    var n := Hashes(line, 0);
    1 <= n <= 6 && SpaceWidth(line, n) > 0 && n + SpaceWidth(line, n) < |line|
  }

  /** Byte `q` belongs to the text of its line: it is neither the '\n' ending the line
      nor a '\r' that `lines` strips before one. */
  predicate InLine(s: Bytes, q: nat)
  {
    q < |s| && s[q] != NL && !(s[q] == CR && q + 1 < |s| && s[q + 1] == NL)
  }

  /** The header test read directly off the text at a line start `p`. */
  predicate HeaderAt(s: Bytes, p: nat)
  {
    p <= |s| &&
    var n := Hashes(s, p);
    var w := SpaceWidth(s, p + n);
    1 <= n <= 6 && w > 0 && s[p + n] != NL && InLine(s, p + n + w)
  }

  // ------------------------------------------------------- header offsets

  /** Start offsets of the header lines of `s`. */
  function HeadersFrom(s: Bytes, i: nat): seq<nat>
    requires i <= |s|
  {
    LinesWhere(s, i, HeaderAt)
  }

  /** Selected lines numbered as `extract_semantic_tokens` numbers them: a running `position`
      advanced by each yielded line's length plus one. */
  function CountedLinesWhere(s: Bytes, i: nat, position: nat, keep: (Bytes, nat) -> bool): seq<nat>
    requires i <= |s|
    decreases |s| - i
  {
    if i == |s| then []
    else
      var rest := CountedLinesWhere(s, NextLine(s, i), position + LineLength(s, i) + 1, keep);
      if keep(s, i) then [position] + rest else rest
  }

  /** Header offsets as `extract_semantic_tokens` computes them. The '\r' that `lines` strips from a
      "\r\n" ending is not counted, so each CRLF line puts later offsets one byte early. */
  function HeadersAsWritten(s: Bytes): seq<nat>
  {
    CountedLinesWhere(s, 0, 0, HeaderAt)
  }

  /** The running count yields one offset per selected line. */
  lemma {:induction false} CountedLinesLength(s: Bytes, i: nat, position: nat, keep: (Bytes, nat) -> bool)
    requires i <= |s|
    ensures |CountedLinesWhere(s, i, position, keep)| == |LinesWhere(s, i, keep)|
    decreases |s| - i
  {
    if i < |s| {
      CountedLinesLength(s, NextLine(s, i), position + LineLength(s, i) + 1, keep);
    }
  }

  /** A running count that starts no later than the true offset stays no later: the
      `k`-th counted offset is at most the `k`-th line start. */
  lemma {:induction false} CountedLinesNotLater(s: Bytes, i: nat, position: nat, keep: (Bytes, nat) -> bool, k: nat)
    requires i <= |s| && position <= i
    requires k < |LinesWhere(s, i, keep)|
    ensures k < |CountedLinesWhere(s, i, position, keep)|
    ensures CountedLinesWhere(s, i, position, keep)[k] <= LinesWhere(s, i, keep)[k]
    decreases |s| - i
  {
    CountedLinesLength(s, i, position, keep);
    var h := if keep(s, i) then 1 else 0;
    if k >= h {
      var n := NextLine(s, i);
      assert n < |s|;
      CountedLinesNotLater(s, n, position + LineLength(s, i) + 1, keep, k - h);
    }
  }

  /** Every line moves the running position on by at least one: no counted offset
      comes before the starting position, and only the first can equal it. */
  lemma {:induction false} CountedLinesAtLeast(s: Bytes, i: nat, position: nat, keep: (Bytes, nat) -> bool, k: nat)
    requires i <= |s|
    requires k < |CountedLinesWhere(s, i, position, keep)|
    ensures CountedLinesWhere(s, i, position, keep)[k] >= position
    ensures k > 0 ==> CountedLinesWhere(s, i, position, keep)[k] > position
    decreases |s| - i
  {
    var next := position + LineLength(s, i) + 1;
    var h := if keep(s, i) then 1 else 0;
    if k >= h {
      CountedLinesAtLeast(s, NextLine(s, i), next, keep, k - h);
    }
  }

  /** The running count lists its offsets in strictly increasing order. */
  lemma {:induction false} CountedLinesIncreasing(s: Bytes, i: nat, position: nat, keep: (Bytes, nat) -> bool, a: nat, b: nat)
    requires i <= |s|
    requires a < b < |CountedLinesWhere(s, i, position, keep)|
    ensures CountedLinesWhere(s, i, position, keep)[a] < CountedLinesWhere(s, i, position, keep)[b]
    decreases |s| - i
  {
    var next := position + LineLength(s, i) + 1;
    var h := if keep(s, i) then 1 else 0;
    if a < h {
      CountedLinesAtLeast(s, NextLine(s, i), next, keep, b - h);
    } else {
      CountedLinesIncreasing(s, NextLine(s, i), next, keep, a - h, b - h);
    }
  }

  /** The offsets as written: one per header line, in strictly increasing order,
      each no later than that line's start, so inside the text. */
  lemma HeadersAsWrittenBounds(s: Bytes)
    ensures |HeadersAsWritten(s)| == |HeadersFrom(s, 0)|
    ensures forall k :: 0 <= k < |HeadersAsWritten(s)| ==> HeadersAsWritten(s)[k] <= HeadersFrom(s, 0)[k]
    ensures AllBelow(HeadersAsWritten(s), |s|)
    ensures Increasing(HeadersAsWritten(s))
  {
    CountedLinesLength(s, 0, 0, HeaderAt);
    forall a, b | 0 <= a < b < |HeadersAsWritten(s)|
      ensures HeadersAsWritten(s)[a] < HeadersAsWritten(s)[b]
    {
      CountedLinesIncreasing(s, 0, 0, HeaderAt, a, b);
    }
    HeadersFromExact(s);
    forall k | 0 <= k < |HeadersAsWritten(s)|
      ensures HeadersAsWritten(s)[k] <= HeadersFrom(s, 0)[k]
    {
      CountedLinesNotLater(s, 0, 0, HeaderAt, k);
    }
  }

  /** The header offsets are exactly the starts of the header lines, in increasing
      order, each inside the text. */
  lemma HeadersFromExact(s: Bytes)
    ensures forall p :: p in HeadersFrom(s, 0) <==> IsLineStart(s, p) && HeaderAt(s, p)
    ensures Increasing(HeadersFrom(s, 0))
    ensures AllBelow(HeadersFrom(s, 0), |s|)
  {
    LinesWhereExact(s, 0, HeaderAt);
    var r := HeadersFrom(s, 0);
    assert forall k :: 0 <= k < |r| ==> r[k] in r;
  }

  /** A "\r\n" line ending whose '\n' is at `k`. */
  predicate CrlfAt(s: Bytes, k: nat)
  {
    0 < k < |s| && s[k] == NL && s[k - 1] == CR
  }

  /** Text in which no '\n' follows a '\r'. */
  predicate NoCrlf(s: Bytes)
  {
    forall k: nat :: k < |s| ==> !CrlfAt(s, k)
  }

  /** Without "\r\n" endings a yielded line runs all the way to its '\n'. */
  lemma LineLengthWithoutCrlf(s: Bytes, i: nat)
    requires i <= |s| && NoCrlf(s)
    ensures LineLength(s, i) == NextNewline(s, i) - i
  {
    var j := NextNewline(s, i);
    if j < |s| { assert !CrlfAt(s, j); }
  }

  /** On text without "\r\n" line endings the running count is each line's true start. */
  lemma {:induction false} CountedLinesWithoutCrlf(s: Bytes, i: nat, keep: (Bytes, nat) -> bool)
    requires i <= |s| && NoCrlf(s)
    ensures CountedLinesWhere(s, i, i, keep) == LinesWhere(s, i, keep)
    decreases |s| - i
  {
    if i < |s| {
      LineLengthWithoutCrlf(s, i);
      if NextNewline(s, i) < |s| {
        CountedLinesWithoutCrlf(s, NextLine(s, i), keep);
      }
    }
  }

  lemma HeadersAsWrittenWithoutCrlf(s: Bytes)
    requires NoCrlf(s)
    ensures HeadersAsWritten(s) == HeadersFrom(s, 0)
  {
    CountedLinesWithoutCrlf(s, 0, HeaderAt);
  }

  /** "a\r\n# H": the header starts at byte 3, `extract_semantic_tokens` records 2 (the '\n'). */
  lemma CrlfHeaderOffsetDrifts()
    ensures HeadersFrom([0x61, CR, NL, HASH, 0x20, 0x48], 0) == [3]
    ensures HeadersAsWritten([0x61, CR, NL, HASH, 0x20, 0x48]) == [2]
  {
    var s: Bytes := [0x61, CR, NL, HASH, 0x20, 0x48];
    assert NextNewline(s, 6) == 6;
    assert NextNewline(s, 5) == 6;
    assert NextNewline(s, 4) == 6;
    assert NextNewline(s, 3) == 6;
    assert NextNewline(s, 2) == 2;
    assert NextNewline(s, 1) == 2;
    assert NextNewline(s, 0) == 2;
    assert LineLength(s, 0) == 1;
    assert Hashes(s, 4) == 0;
    assert Hashes(s, 3) == 1;
    assert HeaderAt(s, 3);
    assert !HeaderAt(s, 0);
    assert LinesWhere(s, 3, HeaderAt) == [3];
    assert LinesWhere(s, 0, HeaderAt) == [3];
    assert CountedLinesWhere(s, 3, 2, HeaderAt) == [2];
    assert CountedLinesWhere(s, 0, 0, HeaderAt) == [2];
  }

  // -------------------------------------- leftmost non-overlapping matches

  /** Where a match starting exactly at a position ends, if one does. */
  type Matcher = (Bytes, nat) -> Option<nat>

  /** A match is never empty and never runs past the text. */
  ghost predicate Advances(s: Bytes, m: Matcher)
  {
    forall p: nat :: m(s, p).Some? ==> p < m(s, p).value <= |s|
  }

  /** Index of the first `b` at or after `i`, or `|s|`. */
  function FirstAt(s: Bytes, i: nat, b: Byte): (j: nat)
    requires i <= |s|
    ensures i <= j <= |s|
    ensures j < |s| ==> s[j] == b
    decreases |s| - i
  {
    if i == |s| || s[i] == b then i else FirstAt(s, i + 1, b)
  }

  /** The needle "```" of `match_indices`. */
  function FenceEnd(s: Bytes, p: nat): (r: Option<nat>)
    ensures r.Some? ==> p < r.value <= |s|
  {
    if p + 3 <= |s| && s[p] == BACKTICK && s[p + 1] == BACKTICK && s[p + 2] == BACKTICK
    then Some(p + 3) else None
  }

  /** `\[([^\]]+)\]\(([^\)]+)\)`: '[', at least one byte other than ']' up to the first
      ']', then '(', at least one byte other than ')' up to the first ')'. No
      backtracking finds another match at `p`: each bracketed run stops at the first
      closing byte. */
  function LinkEnd(s: Bytes, p: nat): (r: Option<nat>)
    ensures r.Some? ==> p < r.value <= |s|
  {
    if p < |s| && s[p] == LBRACKET then
      var j := FirstAt(s, p + 1, RBRACKET);
      if p + 1 < j && j + 1 < |s| && s[j + 1] == LPAREN then
        var k := FirstAt(s, j + 2, RPAREN);
        if j + 2 < k < |s| then Some(k + 1) else None
      else None
    else None
  }

  lemma PatternsAdvance(s: Bytes)
    ensures Advances(s, FenceEnd)
    ensures Advances(s, LinkEnd)
  {
  }

  function EndOf(s: Bytes, m: Matcher, p: nat): nat
  {
    match m(s, p)
    case Some(e) => e
    case None => p
  }

  /** Start offsets of the leftmost non-overlapping matches from `i` on: the search
      resumes where each match ends. */
  function Scan(s: Bytes, i: nat, m: Matcher): seq<nat>
    requires i <= |s| && Advances(s, m)
    decreases |s| - i
  {
    if i == |s| then []
    else
      match m(s, i)
      case Some(e) => [i] + Scan(s, e, m)
      case None => Scan(s, i + 1, m)
  }

  /** `q` lies strictly inside one of the listed matches. */
  ghost predicate Covered(s: Bytes, m: Matcher, r: seq<nat>, q: nat)
  {
    exists k :: 0 <= k < |r| && r[k] < q < EndOf(s, m, r[k])
  }

  /** The `k`-th listed offset starts a match at or after `i`. */
  lemma {:induction false} ScanAt(s: Bytes, i: nat, m: Matcher, k: nat)
    requires i <= |s| && Advances(s, m)
    requires k < |Scan(s, i, m)|
    ensures i <= Scan(s, i, m)[k] < |s| && m(s, Scan(s, i, m)[k]).Some?
    decreases |s| - i
  {
    match m(s, i)
    case Some(e) =>
      if k > 0 {
        ScanAt(s, e, m, k - 1);
      }
    case None =>
      ScanAt(s, i + 1, m, k);
  }

  /** Each listed match ends no later than the next one starts. */
  lemma {:induction false} ScanApart(s: Bytes, i: nat, m: Matcher, k: nat)
    requires i <= |s| && Advances(s, m)
    requires k + 1 < |Scan(s, i, m)|
    ensures EndOf(s, m, Scan(s, i, m)[k]) <= Scan(s, i, m)[k + 1]
    decreases |s| - i
  {
    match m(s, i)
    case Some(e) =>
      if k == 0 {
        ScanAt(s, e, m, 0);
      } else {
        ScanApart(s, e, m, k - 1);
      }
    case None =>
      ScanApart(s, i + 1, m, k);
  }

  /** The listed offsets increase. */
  lemma {:induction false} ScanIncreasing(s: Bytes, i: nat, m: Matcher, a: nat, b: nat)
    requires i <= |s| && Advances(s, m)
    requires a < b < |Scan(s, i, m)|
    ensures Scan(s, i, m)[a] < Scan(s, i, m)[b]
    decreases |s| - i
  {
    match m(s, i)
    case Some(e) =>
      if a == 0 {
        ScanAt(s, e, m, b - 1);
      } else {
        ScanIncreasing(s, e, m, a - 1, b - 1);
      }
    case None =>
      ScanIncreasing(s, i + 1, m, a, b);
  }

  /** A match start at or after `i` is listed or lies inside a listed match. */
  lemma {:induction false} ScanComplete(s: Bytes, i: nat, m: Matcher, q: nat)
    requires i <= |s| && Advances(s, m)
    requires i <= q < |s| && m(s, q).Some?
    ensures q in Scan(s, i, m) || Covered(s, m, Scan(s, i, m), q)
    decreases |s| - i
  {
    var r := Scan(s, i, m);
    match m(s, i)
    case Some(e) =>
      if q == i {
        assert r[0] == q;
      } else if q < e {
        assert r[0] < q < EndOf(s, m, r[0]);
      } else {
        var t := Scan(s, e, m);
        ScanComplete(s, e, m, q);
        if q in t {
          var k :| 0 <= k < |t| && t[k] == q;
          assert r[k + 1] == q;
        } else {
          var k :| 0 <= k < |t| && t[k] < q < EndOf(s, m, t[k]);
          assert r[k + 1] == t[k];
        }
      }
    case None =>
      ScanComplete(s, i + 1, m, q);
  }

  /** Every listed offset starts a match, the matches do not overlap, and every match
      start that is not inside an earlier match is listed. */
  lemma ScanSound(s: Bytes, i: nat, m: Matcher)
    requires i <= |s| && Advances(s, m)
    ensures forall k :: 0 <= k < |Scan(s, i, m)| ==> i <= Scan(s, i, m)[k] && m(s, Scan(s, i, m)[k]).Some?
    ensures forall k :: 0 <= k < |Scan(s, i, m)| - 1 ==> EndOf(s, m, Scan(s, i, m)[k]) <= Scan(s, i, m)[k + 1]
    ensures Increasing(Scan(s, i, m))
    ensures AllBelow(Scan(s, i, m), |s|)
    ensures forall q :: i <= q < |s| && m(s, q).Some? ==> q in Scan(s, i, m) || Covered(s, m, Scan(s, i, m), q)
  {
    var r := Scan(s, i, m);
    forall k | 0 <= k < |r|
      ensures i <= r[k] < |s| && m(s, r[k]).Some?
    {
      ScanAt(s, i, m, k);
    }
    forall k | 0 <= k < |r| - 1
      ensures EndOf(s, m, r[k]) <= r[k + 1]
    {
      ScanApart(s, i, m, k);
    }
    forall a, b | 0 <= a < b < |r|
      ensures r[a] < r[b]
    {
      ScanIncreasing(s, i, m, a, b);
    }
    forall q | i <= q < |s| && m(s, q).Some?
      ensures q in r || Covered(s, m, r, q)
    {
      ScanComplete(s, i, m, q);
    }
  }

  /** Where no match starts, nothing is listed. */
  lemma {:induction false} ScanNone(s: Bytes, i: nat, m: Matcher)
    requires i <= |s| && Advances(s, m)
    requires forall p: nat :: i <= p < |s| ==> m(s, p).None?
    ensures Scan(s, i, m) == []
    decreases |s| - i
  {
    if i < |s| {
      ScanNone(s, i + 1, m);
    }
  }

  function Fences(s: Bytes): seq<nat>
  {
    PatternsAdvance(s);
    Scan(s, 0, FenceEnd)
  }

  function Links(s: Bytes): seq<nat>
  {
    PatternsAdvance(s);
    Scan(s, 0, LinkEnd)
  }

  // ------------------------------------------------------ the whole index

  const HEADERS: string := "headers"
  const CODE_BLOCKS: string := "code_blocks"
  const LINKS: string := "links"

  /** `extract_semantic_tokens`: a "headers" entry when some line is a header,
      "code_blocks" when there are at least two fence markers, "links" when there is
      at least one link. Offsets are stored as `u32`. Header offsets are the running
      position `extract_semantic_tokens` keeps (`HeadersAsWritten`), one per header
      line. */
  function ExtractSemanticTokens(s: Bytes): (m: SemanticMap)
    ensures m.Keys <= {HEADERS, CODE_BLOCKS, LINKS}
    ensures HEADERS in m <==> |HeadersFrom(s, 0)| > 0
    ensures HEADERS in m ==> |m[HEADERS]| == |HeadersFrom(s, 0)|
    ensures CODE_BLOCKS in m <==> |Fences(s)| >= 2
    ensures LINKS in m <==> |Links(s)| > 0
  {
    CountedLinesLength(s, 0, 0, HeaderAt);
    var headers := HeadersAsWritten(s);
    var fences := Fences(s);
    var links := Links(s);
    (if |headers| > 0 then map[HEADERS := Wrap32(headers)] else map[])
      + (if |fences| >= 2 then map[CODE_BLOCKS := Wrap32(fences)] else map[])
      + (if |links| > 0 then map[LINKS := Wrap32(links)] else map[])
  }

  /** Every fence offset starts a "```"; the offsets increase by at least three; and
      every "```" of the text is listed or overlaps the one listed before it. */
  lemma FencesExact(s: Bytes)
    ensures forall k :: 0 <= k < |Fences(s)| ==>
      Fences(s)[k] + 3 <= |s| && s[Fences(s)[k]] == BACKTICK
      && s[Fences(s)[k] + 1] == BACKTICK && s[Fences(s)[k] + 2] == BACKTICK
    ensures forall k :: 0 <= k < |Fences(s)| - 1 ==> Fences(s)[k] + 3 <= Fences(s)[k + 1]
    ensures forall q :: FenceEnd(s, q).Some? ==> q in Fences(s) || Covered(s, FenceEnd, Fences(s), q)
  {
    PatternsAdvance(s);
    ScanSound(s, 0, FenceEnd);
  }

  /** Every link offset starts a match of the link pattern, the matches do not
      overlap, and every match start is listed or lies inside a listed match. */
  lemma LinksExact(s: Bytes)
    ensures forall k :: 0 <= k < |Links(s)| ==> LinkEnd(s, Links(s)[k]).Some?
    ensures forall k :: 0 <= k < |Links(s)| - 1 ==> EndOf(s, LinkEnd, Links(s)[k]) <= Links(s)[k + 1]
    ensures forall q :: LinkEnd(s, q).Some? ==> q in Links(s) || Covered(s, LinkEnd, Links(s), q)
  {
    PatternsAdvance(s);
    ScanSound(s, 0, LinkEnd);
  }

  /** For a document shorter than 4 GiB the `u32` casts lose nothing: each entry holds
      exactly the offsets found, and without "\r\n" endings the header offsets are
      the true starts of the header lines. */
  lemma IndexIsExact(s: Bytes)
    requires |s| < TWO_32
    ensures HEADERS in ExtractSemanticTokens(s) ==> ExtractSemanticTokens(s)[HEADERS] == HeadersAsWritten(s)
    ensures HEADERS in ExtractSemanticTokens(s) ==> Increasing(ExtractSemanticTokens(s)[HEADERS])
    ensures NoCrlf(s) && HEADERS in ExtractSemanticTokens(s) ==>
      ExtractSemanticTokens(s)[HEADERS] == HeadersFrom(s, 0)
    ensures CODE_BLOCKS in ExtractSemanticTokens(s) ==> ExtractSemanticTokens(s)[CODE_BLOCKS] == Fences(s)
    ensures LINKS in ExtractSemanticTokens(s) ==> ExtractSemanticTokens(s)[LINKS] == Links(s)
  {
    HeadersAsWrittenBounds(s);
    if NoCrlf(s) {
      HeadersAsWrittenWithoutCrlf(s);
    }
    PatternsAdvance(s);
    ScanSound(s, 0, FenceEnd);
    ScanSound(s, 0, LinkEnd);
    assert AllBelow(HeadersAsWritten(s), TWO_32);
    assert AllBelow(Fences(s), TWO_32);
    assert AllBelow(Links(s), TWO_32);
  }

  /** "# Title\n\nBody": one header at offset 0, no fences, no links. */
  lemma TitleExample()
    ensures ExtractSemanticTokens([HASH, 0x20, 0x54, 0x69, 0x74, 0x6C, 0x65, NL, NL, 0x42, 0x6F, 0x64, 0x79])
      == map[HEADERS := [0]]
  {
    var s: Bytes := [HASH, 0x20, 0x54, 0x69, 0x74, 0x6C, 0x65, NL, NL, 0x42, 0x6F, 0x64, 0x79];
    assert NextNewline(s, 13) == 13;
    assert NextNewline(s, 12) == 13;
    assert NextNewline(s, 11) == 13;
    assert NextNewline(s, 10) == 13;
    assert NextNewline(s, 9) == 13;
    assert NextNewline(s, 8) == 8;
    assert NextNewline(s, 7) == 7;
    assert NextNewline(s, 6) == 7;
    assert NextNewline(s, 5) == 7;
    assert NextNewline(s, 4) == 7;
    assert NextNewline(s, 3) == 7;
    assert NextNewline(s, 2) == 7;
    assert NextNewline(s, 1) == 7;
    assert NextNewline(s, 0) == 7;
    assert Hashes(s, 1) == 0;
    assert Hashes(s, 0) == 1;
    assert HeaderAt(s, 0);
    assert Hashes(s, 8) == 0;
    assert !HeaderAt(s, 8);
    assert Hashes(s, 9) == 0;
    assert !HeaderAt(s, 9);
    assert LinesWhere(s, 9, HeaderAt) == [];
    assert LinesWhere(s, 8, HeaderAt) == [];
    assert HeadersFrom(s, 0) == [0];
    assert LineLength(s, 9) == 4;
    assert LineLength(s, 8) == 0;
    assert LineLength(s, 0) == 7;
    assert CountedLinesWhere(s, 9, 9, HeaderAt) == [];
    assert CountedLinesWhere(s, 8, 8, HeaderAt) == [];
    assert HeadersAsWritten(s) == [0];
    PatternsAdvance(s);
    assert forall p: nat :: p < |s| ==> s[p] != BACKTICK && s[p] != LBRACKET;
    ScanNone(s, 0, FenceEnd);
    ScanNone(s, 0, LinkEnd);
    assert Fences(s) == [];
    assert Links(s) == [];
  }
}

=== FILE: text.dfy ===
/** Decimal rendering of naturals (Rust's `to_string` / `{}` on integers), ASCII text
    as bytes, and `join`. */
module Text {
  import opened Binary

  predicate IsDigit(c: char) { '0' <= c <= '9' }

  predicate IsAscii(s: string) { forall i :: 0 <= i < |s| ==> s[i] as int < 128 }

  function DigitChar(d: nat): (c: char)
    requires d < 10
    ensures IsDigit(c) && c as int - '0' as int == d
  {
    ('0' as int + d) as char
  }

  function DigitValue(c: char): nat
  {
    if IsDigit(c) then c as int - '0' as int else 0
  }

  /** Shortest decimal form of `n`, most significant digit first. */
  function NatToString(n: nat): (r: string)
    ensures |r| > 0
    ensures forall i :: 0 <= i < |r| ==> IsDigit(r[i])
    ensures r[0] == '0' ==> n == 0
  {
    if n < 10 then [DigitChar(n)] else NatToString(n / 10) + [DigitChar(n % 10)]
  }

  /** Value of a string of decimal digits; the inverse of `NatToString`. */
  function ParseDecimal(s: string): nat
  {
    if |s| == 0 then 0 else 10 * ParseDecimal(s[..|s| - 1]) + DigitValue(s[|s| - 1])
  }

  lemma {:induction false} ParseNatToString(n: nat)
    ensures ParseDecimal(NatToString(n)) == n
  {
    var r := NatToString(n);
    if n >= 10 {
      assert r[..|r| - 1] == NatToString(n / 10);
      ParseNatToString(n / 10);
    }
  }

  /** Two numbers render the same only if they are equal. */
  lemma NatToStringInjective(m: nat, n: nat)
    requires NatToString(m) == NatToString(n)
    ensures m == n
  {
    ParseNatToString(m);
    ParseNatToString(n);
  }

  /** The byte encoding of ASCII text: one byte per character, its code point. */
  function AsciiBytes(s: string): (r: Bytes)
    requires IsAscii(s)
    ensures |r| == |s|
    ensures forall i :: 0 <= i < |s| ==> r[i] == s[i] as int
  {
    seq(|s|, i requires 0 <= i < |s| => s[i] as int)
  }

  /** `parts.join(sep)`. */
  function Join(parts: seq<string>, sep: string): (r: string)
    ensures |parts| == 1 ==> r == parts[0]
    ensures |parts| == 0 ==> r == ""
    decreases |parts|
  {
    if |parts| == 0 then ""
    else if |parts| == 1 then parts[0]
    else parts[0] + sep + Join(parts[1..], sep)
  }

  /** A join starts with its first part. */
  lemma JoinStartsWithFirst(parts: seq<string>, sep: string)
    requires |parts| > 0
    ensures |Join(parts, sep)| >= |parts[0]|
    ensures Join(parts, sep)[..|parts[0]|] == parts[0]
  {
  }
}

=== FILE: utf8.dfy ===
/** UTF-8 well-formedness and `String::from_utf8_lossy`, which replaces each maximal
    ill-formed subpart with U+FFFD (Unicode 15, section 3.9, "U+FFFD Substitution of
    Maximal Subparts"; Rust follows that practice). */
module Utf8 {
  import opened Binary

  /** EF BF BD, the UTF-8 encoding of U+FFFD REPLACEMENT CHARACTER. */
  const REPLACEMENT: Bytes := [0xEF, 0xBF, 0xBD]

  /** Length of the sequence a lead byte announces; 0 when it cannot start one. */
  function Width(lead: Byte): nat
  {
    if lead < 0x80 then 1
    else if 0xC2 <= lead <= 0xDF then 2
    else if 0xE0 <= lead <= 0xEF then 3
    else if 0xF0 <= lead <= 0xF4 then 4
    else 0
  }

  /** Whether `b` may stand `k` bytes (k >= 1) after the lead byte `lead` (Table 3-7). */
  predicate ContinuationOk(lead: Byte, k: nat, b: Byte)
  {
    if k == 1 && lead == 0xE0 then 0xA0 <= b <= 0xBF
    else if k == 1 && lead == 0xED then 0x80 <= b <= 0x9F
    else if k == 1 && lead == 0xF0 then 0x90 <= b <= 0xBF
    else if k == 1 && lead == 0xF4 then 0x80 <= b <= 0x8F
    else 0x80 <= b <= 0xBF
  }

  /** How many acceptable continuation bytes follow the lead byte at `i`, counting from `k`. */
  function Run(s: Bytes, i: nat, k: nat, w: nat): (n: nat)
    requires i + k - 1 < |s| && 1 <= k <= w
    ensures k - 1 <= n < w && i + n < |s|
    decreases w - k
  {
    if k < w && i + k < |s| && ContinuationOk(s[i], k, s[i + k]) then Run(s, i, k + 1, w)
    else k - 1
  }

  /** The chunk decoded at `i`: its length, and whether it is a well-formed character. */
  datatype Chunk = Chunk(len: nat, ok: bool)

  function ChunkAt(s: Bytes, i: nat): (c: Chunk)
    requires i < |s|
    ensures 1 <= c.len && i + c.len <= |s|
  {
    var w := Width(s[i]);
    if w == 0 then Chunk(1, false)
    else if w == 1 then Chunk(1, true)
    else
      var n := Run(s, i, 1, w);
      if n == w - 1 then Chunk(w, true) else Chunk(n + 1, false)
  }

  predicate ValidFrom(s: Bytes, i: nat)
    requires i <= |s|
    decreases |s| - i
  {
    i == |s| || (ChunkAt(s, i).ok && ValidFrom(s, i + ChunkAt(s, i).len))
  }

  /** `s` is well-formed UTF-8, what a Rust `&str` always holds. */
  predicate Valid(s: Bytes)
  {
    ValidFrom(s, 0)
  }

  function LossyFrom(s: Bytes, i: nat): Bytes
    requires i <= |s|
    decreases |s| - i
  {
    if i == |s| then []
    else
      var c := ChunkAt(s, i);
      (if c.ok then s[i..i + c.len] else REPLACEMENT) + LossyFrom(s, i + c.len)
  }

  /** The bytes of `String::from_utf8_lossy(s)`. */
  function Lossy(s: Bytes): Bytes
  {
    LossyFrom(s, 0)
  }

  lemma {:induction false} LossyFromValid(s: Bytes, i: nat)
    requires i <= |s| && ValidFrom(s, i)
    ensures LossyFrom(s, i) == s[i..]
    decreases |s| - i
  {
    if i < |s| {
      LossyFromValid(s, i + ChunkAt(s, i).len);
      GoodChunkKeeps(s, i);
    }
  }

  /** Lossy conversion leaves well-formed text alone. */
  lemma LossyOfValid(s: Bytes)
    requires Valid(s)
    ensures Lossy(s) == s
  {
    LossyFromValid(s, 0);
  }

  /** Lossy conversion changes every ill-formed input. */
  lemma {:induction false} LossyFromInvalid(s: Bytes, i: nat)
    requires i <= |s| && !ValidFrom(s, i)
    ensures LossyFrom(s, i) != s[i..]
    decreases |s| - i
  {
    if ChunkAt(s, i).ok {
      LossyFromInvalid(s, i + ChunkAt(s, i).len);
      GoodChunkKeeps(s, i);
    } else {
      BadChunkReplaced(s, i);
    }
  }

  /** A well-formed chunk is copied, so what follows decides whether the conversion
      changes anything. */
  lemma GoodChunkKeeps(s: Bytes, i: nat)
    requires i < |s| && ChunkAt(s, i).ok
    ensures LossyFrom(s, i + ChunkAt(s, i).len) == s[i + ChunkAt(s, i).len..] <==> LossyFrom(s, i) == s[i..]
  {
    var j := i + ChunkAt(s, i).len;
    SplitAt(s, i, j);
    LossyFromStep(s, i);
    SamePrefix(s[i..j], LossyFrom(s, j), s[j..]);
  }

  /** An ill-formed chunk is replaced, and the text did not start with the replacement. */
  lemma BadChunkReplaced(s: Bytes, i: nat)
    requires i < |s| && !ChunkAt(s, i).ok
    ensures LossyFrom(s, i) != s[i..]
  {
    ReplacementIsWellFormed(s, i);
    LossyFromStep(s, i);
    OtherStartDiffers(LossyFrom(s, i + ChunkAt(s, i).len), s[i..]);
  }

  /** One chunk of the lossy conversion. */
  lemma LossyFromStep(s: Bytes, i: nat)
    requires i < |s|
    ensures LossyFrom(s, i) ==
      (if ChunkAt(s, i).ok then s[i..i + ChunkAt(s, i).len] else REPLACEMENT) + LossyFrom(s, i + ChunkAt(s, i).len)
  {
  }

  lemma SplitAt(s: Bytes, i: nat, j: nat)
    requires i <= j <= |s|
    ensures s[i..] == s[i..j] + s[j..]
  {
  }

  lemma SamePrefix<T>(p: seq<T>, a: seq<T>, b: seq<T>)
    ensures a == b <==> p + a == p + b
  {
    assert (p + a)[|p|..] == a;
    assert (p + b)[|p|..] == b;
  }

  /** Text that does not start with EF BF BD differs from anything that does. */
  lemma OtherStartDiffers(rest: Bytes, t: Bytes)
    requires !(2 < |t| && t[0] == 0xEF && t[1] == 0xBF && t[2] == 0xBD)
    ensures REPLACEMENT + rest != t
  {
    var r := REPLACEMENT + rest;
    assert 2 < |r| && r[0] == 0xEF && r[1] == 0xBF && r[2] == 0xBD;
  }

  /** The replacement character itself decodes as one well-formed chunk. */
  lemma ReplacementIsWellFormed(s: Bytes, i: nat)
    requires i < |s|
    ensures (i + 2 < |s| && s[i] == 0xEF && s[i + 1] == 0xBF && s[i + 2] == 0xBD) ==> ChunkAt(s, i).ok
  {
    if i + 2 < |s| && s[i] == 0xEF && s[i + 1] == 0xBF && s[i + 2] == 0xBD {
      assert Run(s, i, 3, 3) == 2;
    }
  }

  lemma LossyIsIdentityIff(s: Bytes)
    ensures Lossy(s) == s <==> Valid(s)
  {
    if Valid(s) { LossyOfValid(s); } else { LossyFromInvalid(s, 0); }
  }

  /** Every ASCII byte string is well-formed. */
  lemma {:induction false} AsciiValidFrom(s: Bytes, i: nat)
    requires i <= |s|
    requires forall k :: 0 <= k < |s| ==> s[k] < 0x80
    ensures ValidFrom(s, i)
    decreases |s| - i
  {
    if i < |s| {
      AsciiValidFrom(s, i + 1);
    }
  }
}

=== FILE: wrappers.dfy ===
/** Option and Result, the failure-carrying values the rest of the model returns
    where the Rust code returns `Option<T>` or `anyhow::Result<T>`. */
module Wrappers {

  datatype Option<+T> = None | Some(value: T) {
    predicate IsFailure() { None? }

    function PropagateFailure<U>(): Option<U>
      requires None?
    {
      None
    }

    function Extract(): T
      requires Some?
    {
      value
    }
  }

  datatype Result<+R, +E> = Success(value: R) | Failure(error: E) {
    predicate IsFailure() { Failure? }

    function PropagateFailure<U>(): Result<U, E>
      requires Failure?
    {
      Failure(error)
    }

    function Extract(): R
      requires Success?
    {
      value
    }
  }

  /** What a call of the Rust code returns, or that it panics. */
  datatype Outcome<+T, +E> = Returns(result: Result<T, E>) | Panics
}
